=== FILE: README.md ===
# Hash-attack demonstrators: a Dafny model

This project models the algorithmic core of a small teaching application
about attacks on hash functions. The `core/` package holds four pieces.

- **Toy hash and avalanche experiment.** `toy_hash` is SHA-256 truncated to
  a few bits. `_flip_bit` flips one input bit. `avalanche_test` and
  `run_avalanche_suite` count how many output bits change.
- **Birthday attack.** `birthday_attack` samples random messages until
  two of them share a toy hash. `simulate_birthday_trials` repeats the
  attack on one shared random source.
- **Pollard's rho.** The toy hash is viewed as a map on `[0, 2^bits)`.
  `pollard_rho` runs Floyd's tortoise-and-hare search and then measures the
  tail length μ and the cycle length λ. `pollard_trace` records the
  functional graph for display.
- **Length extension.** `SimpleMDHasher` is a toy Merkle–Damgård hash over
  four 32-bit registers. `compute_tag` is the secret-prefix MAC built on
  it. `forge_length_extension` resumes the hash from an observed tag and
  forges the tag of an extended message.

## Layout

| file | module | contents |
|---|---|---|
| `results.dfy` | `Results` | `Result`/`Option`, the errors the core raises (`ValueError` is `InvalidArgument`, `OverflowError` is `Overflow`, `RuntimeError` is `NonConvergence`) |
| `bits.dfy` | `Bits` | Python's `&`, `\|`, `^`, `<<`, `>>` and `bin(x).count("1")` on unbounded non-negative integers, with the facts the model needs |
| `bytes.dfy` | `Bytes` | bytes, `int.from_bytes`/`to_bytes` big- and little-endian |
| `common.dfy` | `Common` | `truncate_digest`, `random_message`, `iter_random_messages`, `SampledSequence.tail` |
| `hash_utils.dfy` | `HashUtils` | `toy_hash`, `_flip_bit`, `avalanche_test`, `run_avalanche_suite` |
| `birthday.dfy` | `Birthday` | `birthday_attack`, `simulate_birthday_trials` |
| `pollard.dfy` | `Pollard` | `_hash_step`, `_locate_cycle_parameters`, `pollard_rho`, `pollard_trace` |
| `merkle_damgard.dfy` | `MerkleDamgard` | `SimpleMDHasher`, `compute_tag` and `forge_length_extension` for any compression function, and the forgery theorem |
| `length_ext.dfy` | `LengthExt` | the concrete `_rotl` and `_compress`, and the theorem for them |

### Modelling choices

- **Foreign code as parameters.**
  - SHA-256 is a parameter `sha` that returns 32 bytes.
  - A random source is a byte stream `Entropy = nat -> byte` plus a position. This covers both `random.Random.getrandbits(8)` and `os.urandom`. Operations that draw return the position after their last draw, so consecutive calls share the stream as they share the generator in the program.
  - The step of Pollard's rho is a parameter `f: nat -> nat`. `HashStep` models `_hash_step`. It is proved to map `[0, 2^bits)` into itself, so from a valid start iteration never raises.
- **Hasher as a value.** `SimpleMDHasher` is an immutable value `Hasher(registers, processed, buffer)`.
  - `copy` is therefore the identity.
  - `digest`, `compute_tag` and `forge_length_extension` cannot change a hasher that a caller passes in. This holds by construction.
- **Bitwise masks as remainders.**
  - Function bodies write `& MASK32` as `% 2^32`, `& 31` as `% 32` and `& 0xFFFFFFFFFFFFFFFF` as `% 2^64`.
  - `truncate_digest`'s `value & ((1 << bits) - 1)` is computed with `Bits.And`, the mask being `Pow2(bits) - 1`.
  - Each of these replacements is justified by a lemma (`LengthExt.MaskIsLowBits`, `LengthExt.RotlShift`, `MerkleDamgard.BitLengthMask`, `Bits.AndLowMask`).
- **`truncate_digest` follows the code.** The code keeps the least significant `bits` bits (`value & mask`), while its docstring speaks of the most significant bits. The model follows the code. `Common.TruncateKeepsLowBytes` states the consequence: only the trailing bytes of the digest matter.
- **`_rotl` on wide values.**
  - `_compress` passes `word ^ (a + index)` to `_rotl` without reducing it to 32 bits. `_rotl` then shifts bits above bit 31 down into the result.
  - The model computes this over unbounded integers, exactly as written.
  - `LengthExt.RotlIsRotation` shows that `_rotl` is a true rotation on 32-bit inputs. `LengthExt.RotlOfWideValue` exhibits a round whose rotation input has bit 32 set, and there the result differs from rotating the reduced value.
- **The forgery theorem is generic.** It is proved once for every compression function (`MerkleDamgard.ForgeryMatchesTag`). `LengthExt.ForgedTagVerifies` then instantiates it with `_compress`.

## Model

| member | source | states |
|---|---|---|
| Common.TruncateDigest | core/common.py:13-31 | Fails exactly when `bits <= 0` or `bits` exceeds the digest's bit length. Otherwise the result is the big-endian value of the digest modulo `2^bits`: its least significant bits, below `2^bits` |
| Common.TruncateKeepsLowBytes | core/common.py:29-31 | Two digests that differ only in equally long leading bytes, before the bytes holding the kept bits, truncate to the same value |
| Common.RandomMessage | core/common.py:34-48 | Fails exactly when `length <= 0`. Otherwise it returns `length` bytes: byte `j` is the `j`-th 8-bit draw from the current position. The stream advances by `length` |
| Common.IterRandomMessages | core/common.py:51-60 | Yields `max(count, 0)` messages. Message `i` is the `i`-th run of `length` draws from the start position, and the stream advances by `count * length`. It fails only when a message must be drawn with `length <= 0` |
| Common.SampledSequence.Tail | core/common.py:82-87 | `[]` when `size <= 0`. Otherwise the last `min(size, len(states))` states, in their original order (the states end with the result) |
| HashUtils.ToyHash | core/hash_utils.py:14-23 | Fails exactly outside `1 <= bits <= 256`. Otherwise the SHA-256 digest's big-endian value modulo `2^bits`, below `2^bits`, and determined by message and width alone |
| HashUtils.FlipBit | core/hash_utils.py:34-42 | Fails exactly for a negative index or one at least `8 * len(message)`. Otherwise the length is kept and every byte except `bit_index // 8` is unchanged. Bit `i` of the result differs from bit `i` of the input exactly when `i == bit_index`, bit 0 being the least significant bit of the first byte |
| HashUtils.FlipBitInvolution | core/hash_utils.py:37-42 | Flipping the same in-range bit twice gives back the original message |
| Bits.PopCountXor | core/hash_utils.py:56-57 | `bin(x ^ y).count("1")` is the number of bit positions at which two `k`-bit values differ, hence at most `k` |
| HashUtils.AvalancheTest | core/hash_utils.py:45-63 | Fails exactly when the width or the bit index is out of range. Otherwise it records the index, the toy hash of the message, and the toy hash of the message with that bit flipped. The changed-bit count is the number of positions below `bits` where the two hashes differ, so it is at most `bits` |
| HashUtils.RunAvalancheSuite | core/hash_utils.py:66-74 | One result per input bit, `8 * len(message)` in all. Result `i` is the avalanche test of bit `i`, with `bit_index == i` and at most `bits` changed bits. It fails only for a bad width on a non-empty message |
| Pollard.HashStep | core/pollard.py:10-13 | Hashes the `max(1, (bits + 7) // 8)`-byte big-endian encoding of the value. A value that is negative or too wide for that encoding raises an overflow error; otherwise a width outside `1..256` raises a value error. A result is below `2^bits` |
| Pollard.HashStepEncodingExact | core/pollard.py:12-13 | The fixed-width encoding of an in-range state decodes back to the state, so distinct states are hashed as distinct messages |
| Pollard.HashStepClosed | core/pollard.py:10-13 | Every output of the step is again a valid input: iterating from a valid start never raises |
| Pollard.FindTail | core/pollard.py:34-40 | The first loop stops at the first `mu` where the walk from `start` and the walk from `meeting` coincide, within the meeting step count; `entry` is that common point |
| Pollard.FindCycle | core/pollard.py:42-47 | The second loop returns the least `lam >= 1` that brings `entry` back to itself |
| Pollard.CycleAgreesAfterMeeting | core/pollard.py:34-40 | After tortoise and hare meet at step `i`, every point of the walk that lies on a cycle equals the point `i` steps later. This is why the first loop stops exactly at the tail |
| Pollard.LocateCycleParameters | core/pollard.py:26-47 | From Floyd's meeting point: `mu` is the least `k` with `f^k(start) == f^k(meeting)` and is the tail length, the first point of the walk on a cycle. `lam` is the least positive `m` with `f^m(x_mu) == x_mu` |
| Pollard.PollardRho | core/pollard.py:50-79 | Succeeds exactly when some `i` in `1..max_steps` has `f^i(start) == f^(2i)(start)`. It raises non-convergence otherwise. `iterations` is the least such `i` and `collision_value` the common point. The tortoise and hare paths have `iterations + 1` entries `f^j(start)` and `f^(2j)(start)`. The tail and cycle lengths are μ and λ of the walk |
| Pollard.PollardTrace | core/pollard.py:82-98 | The keys, in insertion order, are `f^0(start), f^1(start), …`, all distinct, and each maps to its image under `f`. There are at most `steps` keys (at least one when `steps >= 1`). When fewer than `steps` were taken, the walk's next point is already a key: the loop stopped at the first repeat |
| Birthday.SeenExtends | core/birthday.py:42 | Storing a digest not met before keeps `seen` exact: every digest of the trials so far is a key, it maps to the first message with that digest, and all those digests are distinct |
| Birthday.SeenCollides | core/birthday.py:34-41 | A digest already in `seen` yields the first collision. Its first message is the earlier message with that digest, and not all trials have distinct digests |
| Birthday.Scan | core/birthday.py:30-43 | The loop returns no collision exactly when all sampled digests are distinct. Otherwise it returns the first collision. It consumes one message per trial made |
| Birthday.BirthdayAttack | core/birthday.py:21-43 | Fails exactly when at least one trial is due and the message length or the width is invalid. `None` is returned exactly when all `max_trials` sampled digests are pairwise distinct. A collision has `1 <= trials <= max_trials`, its second message is the `trials`-th sample, and the earlier samples have distinct digests. Its first message is the earliest sample with the same digest, and both messages hash to `collision_value`. The stream advances by `trials` messages (by `max(max_trials, 0)` without a collision) |
| Birthday.DistinctDigestsBounded | core/hash_utils.py:14-23 | At most `2^bits` sampled messages can have pairwise distinct `bits`-bit toy hashes |
| Birthday.AttackBeyondDigestSpaceFindsCollision | core/birthday.py:31-43 | For a width in `1..256` and a positive message length, with more than `2^bits` trials allowed, the attack always returns a collision (pigeonhole) |
| Birthday.SimulateBirthdayTrials | core/birthday.py:46-66 | Returns `max(runs, 0)` runs. Each records the collision of its attack and the trials it took (`max_trials` without a collision), so never more than `max_trials`. The attacks are performed one after another on the shared stream. It fails exactly when an attack is due and its parameters are invalid |
| Birthday.SimulationConsumesTrials | core/birthday.py:57-65 | For `max_trials >= 0`, the shared stream advances by the total trial count of all runs times the message length. A negative `max_trials` records that negative count per run while drawing nothing, so the equation does not extend to it |
| MerkleDamgard.GluePadding | core/length_ext.py:48-58 | Between 9 and 72 bytes, and brings the message length up to a multiple of 64 |
| MerkleDamgard.GluePaddingLayout | core/length_ext.py:52-57 | The padding is `0x80`, then zero bytes, then the message length in bits modulo `2^64` as an 8-byte big-endian field |
| MerkleDamgard.BitLengthMask | core/length_ext.py:52 | Masking the bit length with `0xFFFFFFFFFFFFFFFF` reduces it modulo `2^64` |
| MerkleDamgard.Absorb | core/length_ext.py:64-68 | The block loop leaves fewer than 64 bytes buffered and advances the counter by whole blocks. Counter plus buffer grow by exactly the bytes supplied |
| MerkleDamgard.AbsorbChains | core/length_ext.py:64-68 | The block loop compresses the leading whole blocks in order and keeps exactly the remaining suffix as buffer |
| MerkleDamgard.Update | core/length_ext.py:60-68 | Empty data leaves the hasher unchanged. Otherwise the buffer ends shorter than a block, `processed` grows by a multiple of 64, and `processed + len(buffer)` grows by exactly `len(data)` |
| MerkleDamgard.UpdateChains | core/length_ext.py:60-68 | The new registers are the Merkle–Damgård chaining of the old registers over the whole blocks of buffer-plus-data. The new buffer is what follows those blocks |
| MerkleDamgard.UpdateConcat | core/length_ext.py:60-68 | Streaming: `update(x); update(y)` gives the same registers, counter and buffer as `update(x + y)` |
| MerkleDamgard.StateToBytes | core/length_ext.py:82-83 | The serialised state is 16 bytes, four little-endian words. `MerkleDamgard.StateRoundTrip` and `MerkleDamgard.DigestRoundTrip` show that loading the words back inverts it |
| MerkleDamgard.StateRoundTrip | core/length_ext.py:82-97 | Serialising the registers as little-endian words and loading them back, as `state_from_digest` does, gives the same registers |
| MerkleDamgard.DigestRoundTrip | core/length_ext.py:82-97 | Loading any 16-byte digest into registers and serialising them gives the digest back |
| MerkleDamgard.Digest | core/length_ext.py:74-77 | The digest is 16 bytes |
| MerkleDamgard.FinalizeAfterUpdate | core/length_ext.py:70-72 | Padding after `update(data)` is one update with `data` followed by the glue padding for the total length |
| MerkleDamgard.PaddedState | core/length_ext.py:70-77 | From a block boundary with an empty buffer, absorbing a message and its glue padding ends on a block boundary with an empty buffer. The digest after the message reveals exactly those registers |
| MerkleDamgard.DigestIsChainOfPaddedInput | core/length_ext.py:60-77 | From a block boundary with an empty buffer, the digest of `data` is the chaining over `data` plus its glue padding, whose length is a multiple of 64 |
| MerkleDamgard.StateFromDigest | core/length_ext.py:85-97 | Fails exactly when the digest is not 16 bytes. Otherwise the loaded registers serialise back to the digest, the buffer is cleared and the counter is unchanged |
| MerkleDamgard.SetProcessedLength | core/length_ext.py:99-105 | Fails exactly for a negative length. Otherwise the counter becomes that length, the buffer is cleared and the registers are unchanged |
| MerkleDamgard.ComputeTag | core/length_ext.py:116-121 | The tag is 16 bytes |
| MerkleDamgard.ForgeLengthExtension | core/length_ext.py:124-152 | Fails exactly for a negative key-length guess or a digest that is not 16 bytes. Otherwise the forged message is `original ‖ glue_padding(k + len(original)) ‖ append`, and the result records that padding and the guess |
| MerkleDamgard.ForgeResumes | core/length_ext.py:137-144 | Resuming from a tag whose hasher sat on a block boundary after the original message and its padding: the forged digest is that hasher's digest after absorbing the appended bytes |
| MerkleDamgard.ForgeryMatchesTag | core/length_ext.py:124-152 | For every compression function: the tag comes from a hasher that had absorbed nothing and the key-length guess is right. Then the forgery succeeds and the forged digest equals the genuine tag of `secret ‖ forged_message` |
| LengthExt.ComputeTag | core/length_ext.py:116-121 | `compute_tag` with the program's own `_compress` gives a 16-byte tag. `LengthExt.TagIsChainedPaddedInput` states which chaining it is |
| LengthExt.MaskIsLowBits | core/length_ext.py:9 | `x & MASK32` keeps the low 32 bits of `x` |
| LengthExt.RotlShift | core/length_ext.py:14 | `amount & 31` is `amount` modulo 32 |
| LengthExt.RotlIsRotation | core/length_ext.py:13-15 | On a 32-bit value `_rotl` is rotation left by `amount mod 32`: the low bits move up and the high bits wrap round to the bottom |
| LengthExt.RotlFullTurn | core/length_ext.py:13-15 | Rotating a 32-bit value by a multiple of 32 leaves it unchanged |
| LengthExt.RotlOfWideValue | core/length_ext.py:22 | The unreduced `a + index` can reach `2^32`, and then the mix is `2^(index+1)`. Rotating the reduced value would give 0 |
| LengthExt.Word | core/length_ext.py:20 | Word `i` of a block is the little-endian value of bytes `4i..4i+4` (it serialises back to them) |
| LengthExt.TagIsChainedPaddedInput | core/length_ext.py:116-121 | Without a caller's hasher, the tag is the chaining under `_compress`, from the IV, of `key ‖ message` and its glue padding |
| LengthExt.ForgeLengthExtension | core/length_ext.py:124-152 | With `_compress`: fails exactly for a negative guess or a digest that is not 16 bytes |
| LengthExt.ForgedTagVerifies | core/length_ext.py:124-152 | With `_compress`: with the right key length, the forged message is `original ‖ glue ‖ append`, and the forged digest equals `compute_tag(secret, forged_message)` |

## Left out

- Default argument values are not modelled. The model takes every argument explicitly, and its contracts hold for every value. The defaults in the program are: `bits=20` (`DEFAULT_HASH_BITS`) in `toy_hash`, `avalanche_test`, `run_avalanche_suite`, `birthday_attack`, `simulate_birthday_trials`, `pollard_rho` and `pollard_trace`; `length=8` (`RANDOM_MESSAGE_LENGTH`) in `random_message` and `iter_random_messages`; `message_length=8` and `max_trials=1_000_000` in `birthday_attack` and `simulate_birthday_trials`; `runs=100` in `simulate_birthday_trials`; `start=1` in `pollard_rho` and `pollard_trace`; `max_steps=100_000` in `pollard_rho`; and `steps=200` in `pollard_trace`. The `rng=None` default draws from `os.urandom`, which the model treats as one more byte stream.
- Hex strings are not modelled. This covers `hexdigest`, the `str` branch of `state_from_digest` (`bytes.fromhex`), and the hex `forged_digest` of `LengthExtensionResult`: digests and tags are raw bytes. Hex encoding is injective, so tag equality is the same either way.
- Floating point is not modelled: `fraction_changed = changed / bits` in `avalanche_test` and `estimate_collision_probability`. `AvalancheResult` keeps the integer count of changed bits.
- SHA-256, `os.urandom` and `random.Random` are foreign code. SHA-256 is a parameter and the random sources are a byte stream.
- `SimpleMDHasher.__init__` is `MerkleDamgard.NewHasher` and `copy` is the identity on values. Neither has a contract beyond its body. Two kinds of argument cannot be expressed. A negative `processed_bytes` is ruled out because the counter is a natural number. A `state` holding a value outside 0..2^32-1, such as `(2**32, 0, 0, 0)`, is ruled out because each register is a 32-bit word. With such a state the program passes the wide value straight into `_compress` (core/length_ext.py:22). If no block is compressed first, `_state_to_bytes` raises `OverflowError` (core/length_ext.py:83).
- `birthday_attack` can return a "collision" of a message with itself when the same message is drawn twice, and the model does not exclude this.
- Pollard.PollardRho: the step `f` is total, so two failures of `_hash_step` are not represented. Both would happen at the first step (core/pollard.py:64), provided `max_steps` is at least 1. The first is a start that is negative or too wide for the `max(1, (bits + 7) // 8)`-byte encoding: `to_bytes` raises `OverflowError`. The second is a width outside 1..256: `toy_hash` raises `ValueError` through `truncate_digest` (core/common.py:24-27). `Pollard.HashStep` models both errors. `Pollard.HashStepClosed` shows that once one step succeeds, the next succeeds too, so the walk can fail only at its first step.
- Pollard.PollardTrace: the same two failures are not represented, for the same reason. They would happen at the first step of `pollard_trace` (core/pollard.py:93), provided `steps` is at least 1: an out-of-range start raises `OverflowError`, and a width outside 1..256 raises `ValueError`.
- Pollard.LocateCycleParameters: it takes the step count at which tortoise and hare met as a ghost argument, and requires the meeting point to be that far along the walk. Both loops need this to terminate, and `pollard_rho` is the only caller and always satisfies it.
- LengthExt.Rotl: `_rotl` has no contract of its own. Its meaning is given by `LengthExt.RotlIsRotation` and `LengthExt.RotlFullTurn` on 32-bit inputs, and by `LengthExt.RotlOfWideValue` on a wide input.
- MerkleDamgard.Finalize: `_apply_padding` has no contract of its own. It is characterised by `MerkleDamgard.FinalizeAfterUpdate` and `MerkleDamgard.PaddedState`.
- LengthExt.Compress: `_compress` and its rounds (`LengthExt.Round`) carry no contract of their own. They are the compression function that `LengthExt.TagIsChainedPaddedInput` and `LengthExt.ForgedTagVerifies` instantiate. The forgery theorem needs nothing about them.
- Common.IterRandomMessages: `iter_random_messages` is a lazy generator, and a non-positive length raises only when the first message is requested. The model builds the whole list at once and reports the error immediately.
- Birthday.BirthdayAttack: an invalid message length or width is reported before any trial. `birthday_attack` raises in its first trial, before `seen` is touched. A non-positive `message_length` raises before anything is drawn. A width outside 1..256 raises only after the first message has been drawn: `random_message` takes `message_length` bytes from the caller's generator (core/birthday.py:32, core/common.py:48), and then `toy_hash` raises (core/birthday.py:33). The model's error carries no stream position, so those draws are not represented.
- The Streamlit application, the `visualization` package and `core/__init__.py` are presentation code and re-exports, and are not part of this model.

=== FILE: birthday.dfy ===
/** Birthday-style collision search over messages drawn from a byte stream,
    and the repeated experiment that shares one stream across runs. */
module Birthday {
  import opened Results
  import opened Bits
  import opened Bytes
  import opened Common
  import opened HashUtils

  /** The `BirthdayRun` record. */
  datatype BirthdayRun = BirthdayRun(trials: int, collision: Option<CollisionResult>)

  /** The result of one attack and the stream position after it. */
  datatype Attack = Attack(collision: Option<CollisionResult>, next: nat)

  /** Toy hash of the `i`-th message sampled from `position`. */
  ghost function DigestAt(sha: Sha256, bits: nat, stream: Entropy, position: nat, length: nat, i: nat): nat
  {
    HashValue(sha, MessageAt(stream, position, length, i), bits)
  }

  /** The first `n` sampled messages have pairwise distinct toy hashes. */
  ghost predicate DistinctDigests(sha: Sha256, bits: nat, stream: Entropy, position: nat, length: nat, n: nat)
  {
    forall a, b :: 0 <= a < b < n ==>
      DigestAt(sha, bits, stream, position, length, a) != DigestAt(sha, bits, stream, position, length, b)
  }

  /** `c` is the collision found at the first repeated digest among at most
      `maxTrials` sampled messages. */
  ghost predicate IsFirstCollision(sha: Sha256, bits: nat, stream: Entropy, position: nat, length: nat,
                                   maxTrials: nat, c: CollisionResult)
  {
    && 1 <= c.trials <= maxTrials
    && c.secondMessage == MessageAt(stream, position, length, c.trials - 1)
    && c.collisionValue == DigestAt(sha, bits, stream, position, length, c.trials - 1)
    && DistinctDigests(sha, bits, stream, position, length, c.trials - 1)
    && exists j :: 0 <= j < c.trials - 1
         && c.firstMessage == MessageAt(stream, position, length, j)
         && DigestAt(sha, bits, stream, position, length, j) == c.collisionValue
  }

  /** The `seen` dictionary after `n` trials maps each digest met so far to
      the first message that produced it. */
  ghost predicate SeenMatches(sha: Sha256, bits: nat, stream: Entropy, position: nat, length: nat,
                              n: nat, seen: map<nat, seq<byte>>)
  {
    && DistinctDigests(sha, bits, stream, position, length, n)
    && (forall d :: d in seen ==> exists j :: 0 <= j < n && DigestAt(sha, bits, stream, position, length, j) == d)
    && (forall j :: 0 <= j < n ==>
          && DigestAt(sha, bits, stream, position, length, j) in seen
          && seen[DigestAt(sha, bits, stream, position, length, j)] == MessageAt(stream, position, length, j))
  }

  /** Trial `n + 1` draws the `n`-th message of the layout and hashes it. */
  lemma TrialAt(sha: Sha256, bits: nat, stream: Entropy, position: nat, length: nat, n: nat)
    requires 1 <= bits <= 256 && length >= 1
    ensures var message := RandomMessage(length, stream, position + n * length).value.drawn;
            && message == MessageAt(stream, position, length, n)
            && ToyHash(sha, message, bits).value == DigestAt(sha, bits, stream, position, length, n)
  {
    var message := RandomMessage(length, stream, position + n * length).value.drawn;
    assert message == MessageAt(stream, position, length, n);
  }

  /** Recording a new digest keeps `seen` faithful to one more trial. */
  lemma SeenExtends(sha: Sha256, bits: nat, stream: Entropy, position: nat, length: nat,
                    n: nat, seen: map<nat, seq<byte>>)
    requires SeenMatches(sha, bits, stream, position, length, n, seen)
    requires DigestAt(sha, bits, stream, position, length, n) !in seen
    ensures SeenMatches(sha, bits, stream, position, length, n + 1,
                        seen[DigestAt(sha, bits, stream, position, length, n) := MessageAt(stream, position, length, n)])
  {
    var digest := DigestAt(sha, bits, stream, position, length, n);
    var seen' := seen[digest := MessageAt(stream, position, length, n)];
    forall j | 0 <= j < n + 1
      ensures j < n ==> DigestAt(sha, bits, stream, position, length, j) != digest
      ensures DigestAt(sha, bits, stream, position, length, j) in seen'
      ensures seen'[DigestAt(sha, bits, stream, position, length, j)] == MessageAt(stream, position, length, j)
    {
    }
    assert DistinctDigests(sha, bits, stream, position, length, n + 1) by {
      forall a, b | 0 <= a < b < n + 1
        ensures DigestAt(sha, bits, stream, position, length, a) != DigestAt(sha, bits, stream, position, length, b)
      {
        if b == n {
          assert DigestAt(sha, bits, stream, position, length, a) != digest;
        }
      }
    }
    forall d | d in seen'
      ensures exists j :: 0 <= j < n + 1 && DigestAt(sha, bits, stream, position, length, j) == d
    {
      if d != digest {
        var j :| 0 <= j < n && DigestAt(sha, bits, stream, position, length, j) == d;
      }
    }
  }

  /** A digest already in `seen` is the first collision. */
  lemma SeenCollides(sha: Sha256, bits: nat, stream: Entropy, position: nat, length: nat,
                     maxTrials: nat, n: nat, seen: map<nat, seq<byte>>)
    requires n < maxTrials
    requires SeenMatches(sha, bits, stream, position, length, n, seen)
    requires DigestAt(sha, bits, stream, position, length, n) in seen
    ensures var digest := DigestAt(sha, bits, stream, position, length, n);
            && IsFirstCollision(sha, bits, stream, position, length, maxTrials,
                                CollisionResult(n + 1, seen[digest], MessageAt(stream, position, length, n), digest))
            && !DistinctDigests(sha, bits, stream, position, length, maxTrials)
  {
    var digest := DigestAt(sha, bits, stream, position, length, n);
    var j :| 0 <= j < n && DigestAt(sha, bits, stream, position, length, j) == digest;
    assert seen[digest] == MessageAt(stream, position, length, j);
  }

  /** The loop of `birthday_attack` from trial `n + 1` on. */
  function Scan(sha: Sha256, bits: nat, maxTrials: nat, stream: Entropy, position: nat, length: nat,
                n: nat, seen: map<nat, seq<byte>>): (r: Attack)
    requires 1 <= bits <= 256 && length >= 1 && n <= maxTrials
    requires SeenMatches(sha, bits, stream, position, length, n, seen)
    ensures r.collision.None? <==> DistinctDigests(sha, bits, stream, position, length, maxTrials)
    ensures r.collision.None? ==> r.next == position + maxTrials * length
    ensures r.collision.Some? ==>
      && n < r.collision.value.trials
      && IsFirstCollision(sha, bits, stream, position, length, maxTrials, r.collision.value)
      && r.next == position + r.collision.value.trials * length
    decreases maxTrials - n
  {
    if n == maxTrials then Attack(None, position + n * length)
    else
      var message := RandomMessage(length, stream, position + n * length).value.drawn;
      var digest := ToyHash(sha, message, bits).value;
      TrialAt(sha, bits, stream, position, length, n);
      if digest in seen then
        Collide(sha, bits, maxTrials, stream, position, length, n, seen, message, digest)
      else
        SeenExtends(sha, bits, stream, position, length, n, seen);
        Scan(sha, bits, maxTrials, stream, position, length, n + 1, seen[digest := message])
  }

  /** Trial `n + 1` repeats a digest in `seen`: the attack stops there. */
  function Collide(sha: Sha256, bits: nat, maxTrials: nat, stream: Entropy, position: nat, length: nat,
                   n: nat, seen: map<nat, seq<byte>>, message: seq<byte>, digest: nat): (r: Attack)
    requires n < maxTrials && SeenMatches(sha, bits, stream, position, length, n, seen)
    requires message == MessageAt(stream, position, length, n)
    requires digest == DigestAt(sha, bits, stream, position, length, n) && digest in seen
    ensures r.collision.Some? && !DistinctDigests(sha, bits, stream, position, length, maxTrials)
    ensures n < r.collision.value.trials
    ensures IsFirstCollision(sha, bits, stream, position, length, maxTrials, r.collision.value)
    ensures r.next == position + r.collision.value.trials * length
  {
    var trials := n + 1;
    assert trials * length >= 0 by { MulNonNegative(trials, length); }
    var next: nat := position + trials * length;
    SeenCollides(sha, bits, stream, position, length, maxTrials, n, seen);
    Attack(Some(CollisionResult(trials, seen[digest], message, digest)), next)
  }

  /** `birthday_attack(bits, max_trials, rng, message_length)`: sample up to
      `maxTrials` messages and stop at the first repeated toy hash. */
  function BirthdayAttack(sha: Sha256, bits: int, maxTrials: int, stream: Entropy, position: nat,
                          messageLength: int): (r: Result<Attack>)
    ensures r.Ok? <==> maxTrials <= 0 || (messageLength > 0 && 1 <= bits <= 256)
    ensures r.Err? ==> r.error.InvalidArgument?
    ensures r.Ok? && maxTrials <= 0 ==> r.value == Attack(None, position)
    ensures r.Ok? && maxTrials >= 1 ==>
      && (r.value.collision.None? <==> DistinctDigests(sha, bits, stream, position, messageLength, maxTrials))
      && (r.value.collision.None? ==> r.value.next == position + maxTrials * messageLength)
    ensures r.Ok? && r.value.collision.Some? ==>
      var c := r.value.collision.value;
      && IsFirstCollision(sha, bits, stream, position, messageLength, maxTrials, c)
      && HashValue(sha, c.firstMessage, bits) == c.collisionValue
      && HashValue(sha, c.secondMessage, bits) == c.collisionValue
      && r.value.next == position + c.trials * messageLength
  {
    if maxTrials <= 0 then Ok(Attack(None, position))
    else
      // `birthday_attack` raises in its first trial, before `seen` is touched.
      var first :- RandomMessage(messageLength, stream, position);
      var _ :- ToyHash(sha, first.drawn, bits);
      Ok(Scan(sha, bits, maxTrials, stream, position, messageLength, 0, map[]))
  }

  /** A sequence of distinct numbers below `bound` has at most `bound` entries. */
  lemma {:induction false} Pigeonhole(s: seq<nat>, bound: nat)
    requires forall i :: 0 <= i < |s| ==> s[i] < bound
    requires forall i, j :: 0 <= i < j < |s| ==> s[i] != s[j]
    ensures |s| <= bound
    decreases bound
  {
    if |s| > 0 {
      assert s[0] < bound;
      if k :| 0 <= k < |s| && s[k] == bound - 1 {
        var rest := s[..k] + s[k + 1..];
        assert forall i :: 0 <= i < |rest| ==> rest[i] == (if i < k then s[i] else s[i + 1]);
        Pigeonhole(rest, bound - 1);
      } else {
        Pigeonhole(s, bound - 1);
      }
    }
  }

  /** Only `2^bits` digests exist, so more distinct ones are impossible. */
  lemma DistinctDigestsBounded(sha: Sha256, bits: nat, stream: Entropy, position: nat, length: nat, n: nat)
    ensures DistinctDigests(sha, bits, stream, position, length, n) ==> n <= Pow2(bits)
  {
    if DistinctDigests(sha, bits, stream, position, length, n) {
      var s := seq(n, i requires 0 <= i < n => DigestAt(sha, bits, stream, position, length, i));
      Pigeonhole(s, Pow2(bits));
    }
  }

  /** With more trials than possible `bits`-bit digests, a collision is
      always found. */
  lemma AttackBeyondDigestSpaceFindsCollision(sha: Sha256, bits: int, maxTrials: int, stream: Entropy,
                                              position: nat, messageLength: int)
    requires 1 <= bits <= 256 && messageLength > 0
    requires maxTrials > Pow2(bits)
    ensures BirthdayAttack(sha, bits, maxTrials, stream, position, messageLength).Ok?
    ensures BirthdayAttack(sha, bits, maxTrials, stream, position, messageLength).value.collision.Some?
  {
    DistinctDigestsBounded(sha, bits, stream, position, messageLength, maxTrials);
  }

  /** Total number of trials recorded by a list of runs. */
  function TotalTrials(runs: seq<BirthdayRun>): int
  {
    if |runs| == 0 then 0 else runs[0].trials + TotalTrials(runs[1..])
  }

  /** Each run records its collision and its trial count as `simulate_birthday_trials` does. */
  ghost predicate RecordsTrials(runs: seq<BirthdayRun>, maxTrials: int)
  {
    forall k :: 0 <= k < |runs| ==>
      runs[k].trials == (if runs[k].collision.Some? then runs[k].collision.value.trials else maxTrials)
  }

  /** The runs are the attacks performed one after another on the shared
      stream from `position`, which ends at `end`. */
  ghost predicate SharesStream(sha: Sha256, bits: int, maxTrials: int, stream: Entropy, position: nat,
                               messageLength: int, runs: seq<BirthdayRun>, end: nat)
    decreases |runs|
  {
    if |runs| == 0 then end == position
    else
      var attack := BirthdayAttack(sha, bits, maxTrials, stream, position, messageLength);
      && attack.Ok?
      && attack.value.collision == runs[0].collision
      && SharesStream(sha, bits, maxTrials, stream, attack.value.next, messageLength, runs[1..], end)
  }

  /** The runs of a simulation and the stream position after the last one. */
  datatype Simulation = Simulation(runs: seq<BirthdayRun>, next: nat)

  /** `simulate_birthday_trials(bits, runs, rng, message_length, max_trials)`:
      `runs` attacks one after the other on the same stream. */
  function SimulateBirthdayTrials(sha: Sha256, bits: int, runs: int, stream: Entropy, position: nat,
                                  messageLength: int, maxTrials: int): (r: Result<Simulation>)
    ensures r.Ok? <==> runs <= 0 || maxTrials <= 0 || (messageLength > 0 && 1 <= bits <= 256)
    ensures r.Err? ==> r.error.InvalidArgument?
    ensures r.Ok? ==> |r.value.runs| == Max(runs, 0)
    ensures r.Ok? ==> RecordsTrials(r.value.runs, maxTrials)
    ensures r.Ok? ==> forall k :: 0 <= k < |r.value.runs| ==> r.value.runs[k].trials <= maxTrials
    ensures r.Ok? ==> SharesStream(sha, bits, maxTrials, stream, position, messageLength, r.value.runs, r.value.next)
    decreases runs
  {
    if runs <= 0 then Ok(Simulation([], position))
    else
      var attack :- BirthdayAttack(sha, bits, maxTrials, stream, position, messageLength);
      var trials := if attack.collision.Some? then attack.collision.value.trials else maxTrials;
      var rest := SimulateBirthdayTrials(sha, bits, runs - 1, stream, attack.next, messageLength, maxTrials).value;
      var all := [BirthdayRun(trials, attack.collision)] + rest.runs;
      assert all[1..] == rest.runs;
      Ok(Simulation(all, rest.next))
  }

  /** Every run consumes one message per trial it records, so the shared
      stream advances by the total trial count times the message length. */
  lemma {:induction false} SimulationConsumesTrials(sha: Sha256, bits: int, runs: int, stream: Entropy, position: nat,
                                                    messageLength: int, maxTrials: int)
    requires maxTrials >= 0
    ensures var r := SimulateBirthdayTrials(sha, bits, runs, stream, position, messageLength, maxTrials);
            r.Ok? ==> r.value.next == position + TotalTrials(r.value.runs) * messageLength
  {
    var r := SimulateBirthdayTrials(sha, bits, runs, stream, position, messageLength, maxTrials);
    if r.Ok? {
      RunsConsumeTrials(sha, bits, maxTrials, stream, position, messageLength, r.value.runs, r.value.next);
    }
  }

  /** Attacks sharing the stream from `position` to `end` consume one
      message per recorded trial. */
  lemma {:induction false} RunsConsumeTrials(sha: Sha256, bits: int, maxTrials: int, stream: Entropy,
                                                    position: nat, messageLength: int,
                                                    runs: seq<BirthdayRun>, end: nat)
    requires maxTrials >= 0
    requires RecordsTrials(runs, maxTrials)
    requires SharesStream(sha, bits, maxTrials, stream, position, messageLength, runs, end)
    ensures end == position + TotalTrials(runs) * messageLength
    decreases |runs|
  {
    if |runs| > 0 {
      var attack := BirthdayAttack(sha, bits, maxTrials, stream, position, messageLength);
      var t := runs[0].trials;
      AttackAdvances(sha, bits, maxTrials, stream, position, messageLength);
      assert attack.value.next == position + t * messageLength;
      RecordsTrialsTail(runs, maxTrials);
      RunsConsumeTrials(sha, bits, maxTrials, stream, attack.value.next, messageLength, runs[1..], end);
      var later := TotalTrials(runs[1..]);
      assert TotalTrials(runs) == t + later;
      Distribute(TotalTrials(runs), t, later, messageLength);
    } else {
      assert end == position;
      assert TotalTrials(runs) * messageLength == 0 * messageLength == 0;
    }
  }

  /** One attack advances the stream by one message per trial it made. */
  lemma AttackAdvances(sha: Sha256, bits: int, maxTrials: int, stream: Entropy, position: nat, messageLength: int)
    requires maxTrials >= 0
    ensures var attack := BirthdayAttack(sha, bits, maxTrials, stream, position, messageLength);
            attack.Ok? ==>
              attack.value.next == position + (if attack.value.collision.Some? then attack.value.collision.value.trials
                                               else maxTrials) * messageLength
  {
  }

  lemma RecordsTrialsTail(runs: seq<BirthdayRun>, maxTrials: int)
    requires |runs| > 0 && RecordsTrials(runs, maxTrials)
    ensures RecordsTrials(runs[1..], maxTrials)
  {
    forall k | 0 <= k < |runs[1..]|
      ensures runs[1..][k].trials == (if runs[1..][k].collision.Some? then runs[1..][k].collision.value.trials else maxTrials)
    {
      assert runs[1..][k] == runs[k + 1];
    }
  }

  lemma Distribute(total: int, a: int, b: int, c: int)
    requires total == a + b
    ensures total * c == a * c + b * c
  {
  }
}

=== FILE: bits.dfy ===
/** Python's bitwise operators on non-negative integers of unbounded width,
    written as recursions on the least-significant bit, together with the
    facts about them the rest of the model needs. */
module Bits {

  /** 2 to the power `k`. */
  function Pow2(k: nat): (r: nat)
    ensures r >= 1
  {
    if k == 0 then 1 else 2 * Pow2(k - 1)
  }

  /** `x & y`. */
  function And(x: nat, y: nat): nat
  {
    if x == 0 || y == 0 then 0
    else 2 * And(x / 2, y / 2) + (if x % 2 == 1 && y % 2 == 1 then 1 else 0)
  }

  /** `x | y`. */
  function Or(x: nat, y: nat): nat
  {
    if x == 0 then y
    else if y == 0 then x
    else 2 * Or(x / 2, y / 2) + (if x % 2 == 1 || y % 2 == 1 then 1 else 0)
  }

  /** `x ^ y`. */
  function Xor(x: nat, y: nat): nat
    decreases x + y
  {
    if x == 0 then y
    else if y == 0 then x
    else 2 * Xor(x / 2, y / 2) + (if x % 2 != y % 2 then 1 else 0)
  }

  /** `x << k`. */
  function Shl(x: nat, k: nat): nat
  {
    x * Pow2(k)
  }

  /** `x >> k`. */
  function Shr(x: nat, k: nat): nat
  {
    DivNonNegative(x, Pow2(k));
    x / Pow2(k)
  }

  /** Bit `j` of `x` (bit 0 is the least significant). */
  predicate Bit(x: nat, j: nat)
  {
    if j == 0 then x % 2 == 1 else Bit(x / 2, j - 1)
  }

  /** `bin(x).count("1")`: the number of one bits of `x`. */
  function PopCount(x: nat): nat
  {
    if x == 0 then 0 else x % 2 + PopCount(x / 2)
  }

  /** The number of positions below `k` at which `x` and `y` differ, counted
      from the least significant bit upwards. */
  function DiffCount(x: nat, y: nat, k: nat): (r: nat)
    ensures r <= k
  {
    if k == 0 then 0
    else (if x % 2 != y % 2 then 1 else 0) + DiffCount(x / 2, y / 2, k - 1)
  }

  // ---------------------------------------------------------------------
  // Integer division facts
  // ---------------------------------------------------------------------

  /** Euclidean division is unique. */
  lemma DivModUnique(x: int, m: int, t: int, u: int)
    requires m > 0 && 0 <= u < m && x == m * t + u
    ensures x / m == t && x % m == u
  {
    var q, r := x / m, x % m;
    assert x == m * q + r;
    assert m * (t - q) == r - u by {
      assert m * t - m * q == m * (t - q);
    }
    if t > q {
      MulAtLeast(m, t - q);
    } else if t < q {
      MulAtLeast(m, q - t);
    }
  }

  lemma DivNonNegative(x: nat, m: int)
    requires m > 0
    ensures x / m >= 0
  {
  }

  lemma MulNonNegative(a: nat, b: nat)
    ensures a * b >= 0
  {
  }

  lemma MulAtLeast(m: int, d: int)
    requires m > 0 && d >= 1
    ensures m * d >= m
  {
    assert m * d == m * (d - 1) + m;
    assert m * (d - 1) >= 0;
  }

  /** Splitting a remainder modulo `a * p` into its low and high digits. */
  lemma ModSplit(x: nat, a: nat, p: nat)
    requires a >= 1 && p >= 1
    ensures x % (a * p) == a * ((x / a) % p) + x % a
    ensures x / (a * p) == (x / a) / p
  {
    var q, r := x / a, x % a;
    var t, s := q / p, q % p;
    assert x == a * q + r;
    assert q == p * t + s;
    assert x == (a * p) * t + (a * s + r) by {
      assert a * q == a * (p * t) + a * s;
      assert a * (p * t) == (a * p) * t;
    }
    assert a * s + r < a * p by {
      assert s <= p - 1;
      assert a * s <= a * (p - 1);
    }
    DivModUnique(x, a * p, t, a * s + r);
  }

  /** Adding a multiple of the modulus does not change the remainder. */
  lemma ModAddMultiple(c: nat, n: nat, b: nat)
    requires n >= 1
    ensures (c * n + b) % n == b % n
  {
    var q, r := b / n, b % n;
    assert c * n + b == n * (c + q) + r;
    DivModUnique(c * n + b, n, c + q, r);
  }

  lemma {:induction false} Pow2Add(a: nat, b: nat)
    ensures Pow2(a + b) == Pow2(a) * Pow2(b)
    decreases a
  {
    if a > 0 {
      Pow2Add(a - 1, b);
      assert Pow2(a + b) == 2 * Pow2(a - 1 + b);
    }
  }

  lemma {:induction false} Pow2Monotone(a: nat, b: nat)
    requires a <= b
    ensures Pow2(a) <= Pow2(b)
    decreases b
  {
    if a < b {
      Pow2Monotone(a, b - 1);
    }
  }

  // ---------------------------------------------------------------------
  // Bitwise facts
  // ---------------------------------------------------------------------

  /** `x & (2^k - 1)` keeps the low `k` bits: it is `x % 2^k`. */
  lemma {:induction false} AndLowMask(x: nat, k: nat)
    ensures And(x, Pow2(k) - 1) == x % Pow2(k)
    decreases k
  {
    if k == 0 {
      assert Pow2(k) - 1 == 0;
      DivModUnique(x, 1, x, 0);
    } else if x == 0 {
      DivModUnique(0, Pow2(k), 0, 0);
    } else {
      var half := Pow2(k - 1);
      assert Pow2(k) == 2 * half;
      var m := Pow2(k) - 1;
      assert And(x, m) == 2 * And(x / 2, half - 1) + x % 2 by {
        DivModUnique(m, 2, half - 1, 1);
      }
      assert And(x / 2, half - 1) == (x / 2) % half by {
        AndLowMask(x / 2, k - 1);
      }
      assert x % Pow2(k) == 2 * ((x / 2) % half) + x % 2 by {
        ModSplit(x, 2, half);
      }
    }
  }

  /** Xor unfolds uniformly on the lowest bit, including when one side is 0. */
  lemma XorStep(x: nat, y: nat)
    ensures Xor(x, y) == 2 * Xor(x / 2, y / 2) + (if x % 2 != y % 2 then 1 else 0)
  {
    if x == 0 {
      assert Xor(0, y / 2) == y / 2;
    } else if y == 0 {
      assert Xor(x / 2, 0) == x / 2;
    }
  }

  /** Xor of two `k`-bit values is a `k`-bit value. */
  lemma {:induction false} XorBound(x: nat, y: nat, k: nat)
    requires x < Pow2(k) && y < Pow2(k)
    ensures Xor(x, y) < Pow2(k)
    decreases k
  {
    XorStep(x, y);
    if k > 0 {
      XorBound(x / 2, y / 2, k - 1);
    }
  }

  /** Xoring twice with the same value restores the original. */
  lemma {:induction false} XorCancel(x: nat, y: nat)
    ensures Xor(Xor(x, y), y) == x
    decreases x + y
  {
    if x != 0 || y != 0 {
      var z := Xor(x, y);
      XorStep(x, y);
      XorStep(z, y);
      assert z / 2 == Xor(x / 2, y / 2);
      XorCancel(x / 2, y / 2);
    }
  }

  /** Bit `j` of `x ^ y` is set exactly when the operands differ there. */
  lemma {:induction false} XorBit(x: nat, y: nat, j: nat)
    ensures Bit(Xor(x, y), j) <==> (Bit(x, j) != Bit(y, j))
    decreases j
  {
    XorStep(x, y);
    if j > 0 {
      XorBit(x / 2, y / 2, j - 1);
    }
  }

  /** The only bit of `2^k` is bit `k`. */
  lemma {:induction false} Pow2Bit(k: nat, j: nat)
    ensures Bit(Pow2(k), j) <==> j == k
    decreases k
  {
    if k == 0 {
      if j > 0 {
        ZeroBit(j - 1);
      }
    } else if j > 0 {
      Pow2Bit(k - 1, j - 1);
    }
  }

  lemma {:induction false} ZeroBit(j: nat)
    ensures !Bit(0, j)
  {
    if j > 0 {
      ZeroBit(j - 1);
    }
  }

  /** The number of set bits of `x ^ y` is the number of positions at which
      two `k`-bit values differ, hence at most `k`. */
  lemma {:induction false} PopCountXor(x: nat, y: nat, k: nat)
    requires x < Pow2(k) && y < Pow2(k)
    ensures PopCount(Xor(x, y)) == DiffCount(x, y, k)
    ensures PopCount(Xor(x, y)) <= k
    decreases k
  {
    XorStep(x, y);
    if k == 0 {
      assert x == 0 && y == 0;
    } else {
      PopCountXor(x / 2, y / 2, k - 1);
      var z := Xor(x, y);
      assert z % 2 == (if x % 2 != y % 2 then 1 else 0);
      assert z / 2 == Xor(x / 2, y / 2);
    }
  }

  /** Or of two values whose one bits lie in disjoint ranges is their sum. */
  lemma {:induction false} OrDisjoint(a: nat, b: nat, k: nat)
    requires b < Pow2(k)
    ensures Or(a * Pow2(k), b) == a * Pow2(k) + b
    decreases k
  {
    if k > 0 && a > 0 && b > 0 {
      var big := a * Pow2(k);
      assert big == 2 * (a * Pow2(k - 1));
      OrDisjoint(a, b / 2, k - 1);
    }
  }
}

=== FILE: bytes.dfy ===
/** Bytes and the integer encodings of Python's `int.from_bytes` and
    `int.to_bytes`, big-endian (digests, the padding length field) and
    little-endian (the toy hasher's 32-bit words). */
module Bytes {
  import opened Bits

  type byte = x: int | 0 <= x < 256
  type u32 = x: int | 0 <= x < 0x1_0000_0000

  const TWO32: nat := 0x1_0000_0000
  const TWO64: nat := 0x1_0000_0000_0000_0000

  lemma Pow2Byte()
    ensures Pow2(8) == 256
  {
  }

  lemma Pow2Word()
    ensures Pow2(32) == TWO32
  {
    assert Pow2(16) == 0x1_0000 by {
      Pow2Add(8, 8);
      Pow2Byte();
    }
    Pow2Add(16, 16);
  }

  lemma Pow2DoubleWord()
    ensures Pow2(64) == TWO64
  {
    Pow2Word();
    Pow2Add(32, 32);
  }

  lemma Pow2Bytes(n: nat)
    requires n >= 1
    ensures Pow2(8 * n) == Pow2(8 * (n - 1)) * 256
  {
    var k := 8 * (n - 1);
    assert k + 8 == 8 * n;
    Pow2Add(k, 8);
    Pow2Byte();
  }

  /** `int.from_bytes(s, "big")`. */
  function BeToNat(s: seq<byte>): (r: nat)
    ensures r < Pow2(8 * |s|)
  {
    if |s| == 0 then 0
    else
      var high := BeToNat(s[..|s| - 1]);
      Pow2Bytes(|s|);
      high * 256 + s[|s| - 1]
  }

  /** `x.to_bytes(k, "big")` for an `x` that fits; a larger `x` keeps its
      low `8 * k` bits. */
  function NatToBe(x: nat, k: nat): (r: seq<byte>)
    ensures |r| == k
    ensures BeToNat(r) == x % Pow2(8 * k)
  {
    if k == 0 then []
    else
      var r := NatToBe(x / 256, k - 1) + [x % 256];
      assert r[..k - 1] == NatToBe(x / 256, k - 1);
      Pow2Bytes(k);
      ModSplit(x, 256, Pow2(8 * (k - 1)));
      r
  }

  /** Big-endian value of a concatenation. */
  lemma {:induction false} BeToNatAppend(p: seq<byte>, s: seq<byte>)
    ensures BeToNat(p + s) == BeToNat(p) * Pow2(8 * |s|) + BeToNat(s)
    decreases |s|
  {
    if |s| == 0 {
      assert p + s == p;
    } else {
      var s' := s[..|s| - 1];
      var last := s[|s| - 1] as int;
      assert (p + s)[..|p + s| - 1] == p + s';
      assert BeToNat(p + s) == BeToNat(p + s') * 256 + last;
      assert BeToNat(s) == BeToNat(s') * 256 + last;
      BeToNatAppend(p, s');
      Pow2Bytes(|s|);
      ShiftByte(BeToNat(p), Pow2(8 * |s'|), BeToNat(s'), last);
    }
  }

  lemma ShiftByte(a: int, b: int, c: int, last: int)
    ensures (a * b + c) * 256 + last == a * (b * 256) + (c * 256 + last)
  {
  }

  /** `x.to_bytes(4, "little")`. */
  function U32ToLe(x: u32): (r: seq<byte>)
    ensures |r| == 4
  {
    [x % 256, (x / 0x100) % 256, (x / 0x1_0000) % 256, x / 0x100_0000]
  }

  /** `int.from_bytes(b, "little")` for four bytes. */
  function LeToU32(b: seq<byte>): u32
    requires |b| == 4
  {
    var b0, b1, b2, b3 := b[0] as int, b[1] as int, b[2] as int, b[3] as int;
    b0 + 0x100 * b1 + 0x1_0000 * b2 + 0x100_0000 * b3
  }

  lemma LeWordRoundTrip(x: u32)
    ensures LeToU32(U32ToLe(x)) == x
  {
    var q1, q2 := x / 0x100, x / 0x1_0000;
    ModSplit(x, 0x100, 0x100);
    ModSplit(x, 0x1_0000, 0x100);
    assert q2 == q1 / 0x100 && x / 0x100_0000 == q2 / 0x100;
    assert x == 0x100 * q1 + x % 0x100;
    assert q1 == 0x100 * q2 + q1 % 0x100;
    assert q2 == 0x100 * (q2 / 0x100) + q2 % 0x100;
  }

  lemma LeBytesRoundTrip(b: seq<byte>)
    requires |b| == 4
    ensures U32ToLe(LeToU32(b)) == b
  {
    var b0, b1, b2, b3 := b[0] as int, b[1] as int, b[2] as int, b[3] as int;
    var x := LeToU32(b);
    DivModUnique(x, 0x100, b1 + 0x100 * b2 + 0x1_0000 * b3, b0);
    DivModUnique(x, 0x1_0000, b2 + 0x100 * b3, b0 + 0x100 * b1);
    DivModUnique(x, 0x100_0000, b3, b0 + 0x100 * b1 + 0x1_0000 * b2);
    DivModUnique(b1 + 0x100 * b2 + 0x1_0000 * b3, 0x100, b2 + 0x100 * b3, b1);
    DivModUnique(b2 + 0x100 * b3, 0x100, b3, b2);
    assert U32ToLe(x) == [b0, b1, b2, b3];
  }
}

=== FILE: common.dfy ===
/** Byte-level helpers shared by the attacks: digest truncation, random
    messages drawn from a byte stream, and the sampled-state window. */
module Common {
  import opened Results
  import opened Bits
  import opened Bytes

  /** The random source: the `i`-th 8-bit draw of a `random.Random` (or of
      the operating system's entropy pool) is `stream(i)`. Its state is the
      number of draws consumed so far. */
  type Entropy = nat -> byte

  /** A value drawn from a stream together with the stream position after it. */
  datatype Sampled<T> = Sampled(drawn: T, next: nat)

  /** Outcome of a collision search (the `CollisionResult` record). */
  datatype CollisionResult = CollisionResult(
    trials: nat,
    firstMessage: seq<byte>,
    secondMessage: seq<byte>,
    collisionValue: nat)


  /** `truncate_digest`: the big-endian value of `digest` masked with
      `(1 << bits) - 1`. This keeps the LEAST significant `bits` bits. */
  function TruncateDigest(digest: seq<byte>, bits: int): (r: Result<nat>)
    ensures r.Ok? <==> 0 < bits <= 8 * |digest|
    ensures r.Err? ==> r.error.InvalidArgument?
    ensures r.Ok? ==> r.value < Pow2(bits)
    ensures r.Ok? ==> r.value == BeToNat(digest) % Pow2(bits)
  {
    if bits <= 0 then Err(InvalidArgument("bits must be positive"))
    else if bits > |digest| * 8 then Err(InvalidArgument("bits exceeds digest size"))
    else
      var value := BeToNat(digest);
      var mask := Pow2(bits) - 1;
      AndLowMask(value, bits);
      Ok(And(value, mask))
  }

  /** Truncation sees only the trailing bytes that hold the kept bits:
      changing any byte before them leaves the result unchanged. */
  lemma TruncateKeepsLowBytes(p1: seq<byte>, p2: seq<byte>, s: seq<byte>, bits: int)
    requires |p1| == |p2|
    requires 0 < bits <= 8 * |s|
    ensures TruncateDigest(p1 + s, bits) == TruncateDigest(p2 + s, bits)
  {
    var n := Pow2(bits);
    LowDigitsOnly(p1, s, bits);
    LowDigitsOnly(p2, s, bits);
    assert TruncateDigest(p1 + s, bits).value == BeToNat(s) % n;
    assert TruncateDigest(p2 + s, bits).value == BeToNat(s) % n;
  }

  lemma LowDigitsOnly(p: seq<byte>, s: seq<byte>, bits: nat)
    requires bits <= 8 * |s|
    ensures BeToNat(p + s) % Pow2(bits) == BeToNat(s) % Pow2(bits)
  {
    var k := 8 * |s| - bits;
    BeToNatAppend(p, s);
    Pow2Add(k, bits);
    assert k + bits == 8 * |s|;
    ScaledMultiple(BeToNat(p), Pow2(k), Pow2(bits), BeToNat(s));
  }

  lemma ScaledMultiple(a: nat, rest: nat, n: nat, b: nat)
    requires n >= 1
    ensures (a * (rest * n) + b) % n == b % n
  {
    assert a * (rest * n) == (a * rest) * n;
    ModAddMultiple(a * rest, n, b);
  }

  /** `n` consecutive 8-bit draws starting at `position`, one per byte. */
  function DrawBytes(stream: Entropy, position: nat, n: nat): (r: seq<byte>)
    ensures |r| == n
    ensures forall j :: 0 <= j < n ==> r[j] == stream(position + j)
    decreases n
  {
    if n == 0 then [] else [stream(position)] + DrawBytes(stream, position + 1, n - 1)
  }

  /** `random_message(length, rng=...)`. */
  function RandomMessage(length: int, stream: Entropy, position: nat): (r: Result<Sampled<seq<byte>>>)
    ensures r.Ok? <==> length > 0
    ensures r.Err? ==> r.error.InvalidArgument?
    ensures r.Ok? ==> |r.value.drawn| == length && r.value.next == position + length
    ensures r.Ok? ==> forall j :: 0 <= j < length ==> r.value.drawn[j] == stream(position + j)
  {
    if length <= 0 then Err(InvalidArgument("length must be positive"))
    else Ok(Sampled(DrawBytes(stream, position, length), position + length))
  }

  /** The `i`-th (from 0) of a run of `length`-byte messages drawn back to
      back from `position`: a reference description of the stream layout. */
  ghost function MessageAt(stream: Entropy, position: nat, length: nat, i: nat): seq<byte>
  {
    seq(length, j requires 0 <= j < length => stream(position + i * length + j))
  }

  lemma MessageAtShift(stream: Entropy, position: nat, length: nat, i: nat)
    ensures MessageAt(stream, position + length, length, i) == MessageAt(stream, position, length, i + 1)
  {
    assert position + length + i * length == position + (i + 1) * length;
  }

  /** `iter_random_messages(count, length, rng=...)`, collected eagerly. */
  function IterRandomMessages(count: int, length: int, stream: Entropy, position: nat)
    : (r: Result<Sampled<seq<seq<byte>>>>)
    ensures r.Ok? <==> count <= 0 || length > 0
    ensures r.Err? ==> r.error.InvalidArgument?
    ensures r.Ok? ==> |r.value.drawn| == Max(count, 0)
    ensures r.Ok? && count > 0 ==>
      && r.value.next == position + count * length
      && forall i :: 0 <= i < count ==> r.value.drawn[i] == MessageAt(stream, position, length, i)
    ensures r.Ok? && count <= 0 ==> r.value.next == position
    decreases count
  {
    if count <= 0 then Ok(Sampled([], position))
    else
      var first :- RandomMessage(length, stream, position);
      var rest := IterRandomMessages(count - 1, length, stream, first.next).value;
      var msgs := [first.drawn] + rest.drawn;
      assert msgs[0] == MessageAt(stream, position, length, 0);
      assert forall i :: 1 <= i < count ==> msgs[i] == MessageAt(stream, position, length, i) by {
        forall i | 1 <= i < count
          ensures msgs[i] == MessageAt(stream, position, length, i)
        {
          MessageAtShift(stream, position, length, i - 1);
        }
      }
      assert rest.next == position + count * length by {
        if count > 1 {
          assert rest.next == position + length + (count - 1) * length;
        }
      }
      Ok(Sampled(msgs, rest.next))
  }

  /** The `SampledSequence` record of visited states. */
  datatype SampledSequence = SampledSequence(states: seq<int>) {

    /** `tail(size)`: the last `size` states, or all of them when fewer. */
    function Tail(size: int): (r: seq<int>)
      ensures size <= 0 ==> r == []
      ensures size > 0 ==> |r| == Min(size, |states|)
      ensures |r| <= |states| && states == states[..|states| - |r|] + r
    {
      if size <= 0 then []
      else if size >= |states| then states
      else states[|states| - size..]
    }
  }
}

=== FILE: hash_utils.dfy ===
/** The truncated-SHA-256 toy hash, single-bit flips, and the integer part
    of the avalanche experiment. */
module HashUtils {
  import opened Results
  import opened Bits
  import opened Bytes
  import opened Common

  /** A 32-byte SHA-256 digest. */
  type Digest256 = s: seq<byte> | |s| == 32 witness seq(32, i => 0 as byte)

  /** SHA-256 itself is a foreign library: the model takes it as a parameter. */
  type Sha256 = seq<byte> -> Digest256


  /** The toy hash value of `message` for a valid width `bits`. */
  ghost function HashValue(sha: Sha256, message: seq<byte>, bits: nat): nat
  {
    BeToNat(sha(message)) % Pow2(bits)
  }

  /** `toy_hash(message, bits)`: SHA-256 truncated to `bits` bits. Being a
      function of its inputs, it is deterministic. */
  function ToyHash(sha: Sha256, message: seq<byte>, bits: int): (r: Result<nat>)
    ensures r.Ok? <==> 1 <= bits <= 256
    ensures r.Err? ==> r.error.InvalidArgument?
    ensures r.Ok? ==> r.value < Pow2(bits)
    ensures r.Ok? ==> r.value == HashValue(sha, message, bits)
  {
    TruncateDigest(sha(message), bits)
  }

  /** Bit `i` of a message: bit `i % 8` of byte `i / 8`, so bit 0 is the
      least significant bit of the first byte. */
  predicate BitAt(message: seq<byte>, i: nat)
    requires i < 8 * |message|
  {
    Bit(message[i / 8], i % 8)
  }

  /** `_flip_bit(message, bit_index)`. */
  function FlipBit(message: seq<byte>, bitIndex: int): (r: Result<seq<byte>>)
    ensures r.Ok? <==> 0 <= bitIndex < 8 * |message|
    ensures r.Err? ==> r.error.InvalidArgument?
    ensures r.Ok? ==> |r.value| == |message|
    ensures r.Ok? ==> forall j :: 0 <= j < |message| && j != bitIndex / 8 ==> r.value[j] == message[j]
    ensures r.Ok? ==> forall i :: 0 <= i < 8 * |message| ==>
      (BitAt(r.value, i) <==> (BitAt(message, i) != (i == bitIndex)))
  {
    if bitIndex < 0 then Err(InvalidArgument("bit_index must be non-negative"))
    else
      var byteIndex, offset := bitIndex / 8, bitIndex % 8;
      if byteIndex >= |message| then Err(InvalidArgument("bit_index out of range for the message"))
      else
        var original := message[byteIndex];
        Pow2Byte();
        assert Pow2(offset) < Pow2(8) by { Pow2Monotone(offset + 1, 8); }
        XorBound(original, Pow2(offset), 8);
        var flipped := message[byteIndex := Xor(original, Pow2(offset))];
        FlipOnlyThatBit(message, flipped, bitIndex);
        Ok(flipped)
  }

  lemma FlipOnlyThatBit(message: seq<byte>, flipped: seq<byte>, bitIndex: nat)
    requires bitIndex < 8 * |message| && |flipped| == |message|
    requires forall j :: 0 <= j < |message| && j != bitIndex / 8 ==> flipped[j] == message[j]
    requires flipped[bitIndex / 8] == Xor(message[bitIndex / 8], Pow2(bitIndex % 8))
    ensures forall i :: 0 <= i < 8 * |message| ==>
      (BitAt(flipped, i) <==> (BitAt(message, i) != (i == bitIndex)))
  {
    forall i | 0 <= i < 8 * |message|
      ensures BitAt(flipped, i) <==> (BitAt(message, i) != (i == bitIndex))
    {
      if i / 8 == bitIndex / 8 {
        XorBit(message[i / 8], Pow2(bitIndex % 8), i % 8);
        Pow2Bit(bitIndex % 8, i % 8);
        assert i == 8 * (i / 8) + i % 8;
        assert bitIndex == 8 * (bitIndex / 8) + bitIndex % 8;
      }
    }
  }

  /** Flipping the same bit twice gives back the original message. */
  lemma FlipBitInvolution(message: seq<byte>, bitIndex: int)
    requires 0 <= bitIndex < 8 * |message|
    ensures FlipBit(message, bitIndex).Ok?
    ensures FlipBit(FlipBit(message, bitIndex).value, bitIndex) == Ok(message)
  {
    var once := FlipBit(message, bitIndex).value;
    var twice := FlipBit(once, bitIndex).value;
    var k := bitIndex / 8;
    XorCancel(message[k], Pow2(bitIndex % 8));
    assert twice[k] == message[k];
    assert twice == message;
  }

  /** The `AvalancheResult` record. `avalanche_test`'s `fraction_changed` is the
      floating-point quotient `changedBits / bits`; the model keeps the count. */
  datatype AvalancheResult = AvalancheResult(
    bitIndex: nat,
    changedBits: nat,
    baselineHash: nat,
    flippedHash: nat)

  /** `avalanche_test(message, bit_index, bits)`. */
  function AvalancheTest(sha: Sha256, message: seq<byte>, bitIndex: int, bits: int): (r: Result<AvalancheResult>)
    ensures r.Ok? <==> 1 <= bits <= 256 && 0 <= bitIndex < 8 * |message|
    ensures r.Err? ==> r.error.InvalidArgument?
    ensures r.Ok? ==>
      && r.value.bitIndex == bitIndex
      && r.value.baselineHash == HashValue(sha, message, bits)
      && r.value.flippedHash == HashValue(sha, FlipBit(message, bitIndex).value, bits)
      && r.value.changedBits == DiffCount(r.value.baselineHash, r.value.flippedHash, bits)
      && r.value.changedBits <= bits
  {
    var baseline :- ToyHash(sha, message, bits);
    var flippedMessage :- FlipBit(message, bitIndex);
    var flipped := ToyHash(sha, flippedMessage, bits).value;
    var diff := Xor(baseline, flipped);
    PopCountXor(baseline, flipped, bits);
    Ok(AvalancheResult(bitIndex, PopCount(diff), baseline, flipped))
  }

  /** `results` are the avalanche tests of bits `from`, `from + 1`, ... */
  ghost predicate TestsFrom(sha: Sha256, message: seq<byte>, bits: int, from: nat, results: seq<AvalancheResult>)
  {
    forall i :: 0 <= i < |results| ==> AvalancheTest(sha, message, from + i, bits) == Ok(results[i])
  }

  /** `run_avalanche_suite(message, bits)`, from bit `from` onwards. */
  function AvalancheFrom(sha: Sha256, message: seq<byte>, bits: int, from: nat): (r: Result<seq<AvalancheResult>>)
    requires from <= 8 * |message|
    ensures r.Ok? <==> from == 8 * |message| || 1 <= bits <= 256
    ensures r.Ok? ==> |r.value| == 8 * |message| - from
    ensures r.Ok? ==> TestsFrom(sha, message, bits, from, r.value)
    decreases 8 * |message| - from
  {
    if from == 8 * |message| then Ok([])
    else
      var first :- AvalancheTest(sha, message, from, bits);
      var rest := AvalancheFrom(sha, message, bits, from + 1).value;
      AvalancheCons(sha, message, bits, from, first, rest);
      Ok([first] + rest)
  }

  /** The test of bit `from` followed by the tests from bit `from + 1` on are
      the tests from bit `from` on. */
  lemma AvalancheCons(sha: Sha256, message: seq<byte>, bits: int, from: nat,
                      first: AvalancheResult, rest: seq<AvalancheResult>)
    requires AvalancheTest(sha, message, from, bits) == Ok(first)
    requires TestsFrom(sha, message, bits, from + 1, rest)
    ensures TestsFrom(sha, message, bits, from, [first] + rest)
  {
    var all := [first] + rest;
    forall i | 0 <= i < |all|
      ensures AvalancheTest(sha, message, from + i, bits) == Ok(all[i])
    {
      if i > 0 {
        assert all[i] == rest[i - 1];
        assert from + i == from + 1 + (i - 1);
      }
    }
  }

  /** `run_avalanche_suite(message, bits)`: one result per input bit, result
      `i` being the test of bit `i`. */
  function RunAvalancheSuite(sha: Sha256, message: seq<byte>, bits: int): (r: Result<seq<AvalancheResult>>)
    ensures r.Ok? <==> |message| == 0 || 1 <= bits <= 256
    ensures r.Ok? ==> |r.value| == 8 * |message|
    ensures r.Ok? ==> forall i :: 0 <= i < |r.value| ==>
      && r.value[i].bitIndex == i
      && r.value[i].changedBits <= bits
      && AvalancheTest(sha, message, i, bits) == Ok(r.value[i])
  {
    AvalancheFrom(sha, message, bits, 0)
  }
}

=== FILE: length_ext.dfy ===
/** The concrete toy compression function of the length-extension
    demonstrator, and the MAC and forgery instantiated with it. */
module LengthExt {
  import opened Results
  import opened Bits
  import opened Bytes
  import MD = MerkleDamgard

  const MASK32: nat := 0xFFFF_FFFF

  /** `x & MASK32`, written as the remainder it equals (`MaskIsLowBits`). */
  function Mask32(x: nat): u32
  {
    x % TWO32
  }

  /** `x & MASK32` keeps the low 32 bits of `x`. */
  lemma MaskIsLowBits(x: nat)
    ensures And(x, MASK32) == Mask32(x)
  {
    Pow2Word();
    AndLowMask(x, 32);
  }

  /** `_rotl(value, amount)`. `value` is not reduced first: the bits it has
      above bit 31 are shifted down into the result too. `amount & 31` is
      written as `amount % 32` (`RotlShift`). */
  function Rotl(value: nat, amount: nat): u32
  {
    var shift := amount % 32;
    Mask32(Or(Shl(value, shift), Shr(value, 32 - shift)))
  }

  /** `amount & 31` is `amount` modulo 32. */
  lemma RotlShift(amount: nat)
    ensures And(amount, 31) == amount % 32
  {
    assert Pow2(5) == 32;
    AndLowMask(amount, 5);
  }

  lemma Pow2Split32(s: nat)
    requires s <= 32
    ensures Pow2(32 - s) * Pow2(s) == TWO32
  {
    Pow2Add(32 - s, s);
    Pow2Word();
  }

  lemma ProductSign(p: int, x: int)
    requires p >= 1
    ensures x > 0 <==> p * x > 0
    ensures x >= 0 <==> p * x >= 0
  {
  }

  /** Splitting a word at `p` and swapping the halves stays within `p * q`. */
  lemma SwapHalves(value: int, p: int, q: int, hi: int, lo: int)
    requires p >= 1 && q >= 1 && 0 <= value < p * q
    requires value == p * hi + lo && 0 <= lo < p
    ensures 0 <= hi < q
    ensures value * q == hi * (p * q) + lo * q
    ensures 0 <= lo * q + hi < p * q
  {
    ProductSign(p, q - hi);
    assert p * (q - hi) == p * q - p * hi;
    ProductSign(p, hi + 1);
    assert p * (hi + 1) == p * hi + p;
    ProductSign(q, p - 1 - lo);
    assert q * (p - 1 - lo) == p * q - q - lo * q;
    ProductSign(q, lo);
    assert value * q == (p * hi + lo) * q;
  }

  /** For a 32-bit value `_rotl` is rotation: the low `32 - s` bits move up
      by `s` places and the high `s` bits wrap round to the bottom, where
      `s` is `amount` modulo 32. */
  lemma RotlIsRotation(value: u32, amount: nat)
    ensures var s := amount % 32;
            Rotl(value, amount) == (value % Pow2(32 - s)) * Pow2(s) + value / Pow2(32 - s)
  {
    var s := amount % 32;
    var p, q := Pow2(32 - s), Pow2(s);
    var hi, lo := value / p, value % p;
    var rotated := lo * q + hi;
    assert p * q == TWO32 by { Pow2Split32(s); }
    assert 0 <= hi < q && value * q + hi == hi * TWO32 + rotated && 0 <= rotated < TWO32 by {
      SwapHalves(value, p, q, hi, lo);
    }
    assert Or(Shl(value, s), Shr(value, 32 - s)) == hi * TWO32 + rotated by {
      OrDisjoint(value, hi, s);
    }
    assert Rotl(value, amount) == (hi * TWO32 + rotated) % TWO32;
    DivModUnique(hi * TWO32 + rotated, TWO32, hi, rotated);
  }

  /** Rotation by a multiple of 32 is the identity on 32-bit values. */
  lemma RotlFullTurn(value: u32, amount: nat)
    requires amount % 32 == 0
    ensures Rotl(value, amount) == value
  {
    RotlIsRotation(value, amount);
    Pow2Split32(0);
    DivModUnique(value, TWO32, 0, value);
  }

  /** A power of two that divides `n` by at least 2 is below `n`. */
  lemma FactorBelow(p: int, cofactor: int, n: int)
    requires p >= 1 && cofactor >= 2 && cofactor * p == n
    ensures p < n
  {
    MulAtLeast(p, cofactor - 1);
    assert cofactor * p == p * (cofactor - 1) + p;
  }

  /** The consequence of not reducing `value`: in round `index` of
      `_compress`, a zero word and a register `a` with `a + index == 2^32`
      make `_rotl` see bit 32, and the mix becomes `2^(index + 1)`; the
      rotation of the low 32 bits of `a + index` (all zero) would be 0. */
  lemma RotlOfWideValue(a: u32, index: nat, word: u32)
    requires 1 <= index < 16 && a + index == TWO32 && word == 0
    ensures Rotl(Xor(word, a + index), index % 16 + 1) == Pow2(index + 1)
    ensures Rotl(Xor(word, (a + index) % TWO32), index % 16 + 1) == 0
  {
    assert index % 16 + 1 == index + 1;
    assert Xor(word, a + index) == TWO32;
    RotlOfTwo32(index + 1, Pow2(index + 1));
    assert Xor(word, (a + index) % TWO32) == 0;
    RotlOfZero(index + 1);
  }

  /** `_rotl(2^32, s)` is `p = 2^s` for a shift `s` in 1..31. */
  lemma RotlOfTwo32(s: nat, p: nat)
    requires 1 <= s < 32 && p == Pow2(s)
    ensures Rotl(TWO32, s) == p
  {
    ShrOfTwo32(s);
    ShlOfTwo32(s);
    MaskOfRepeatedWord(p);
    RotlFromParts(s, p);
  }

  lemma RotlFromParts(s: nat, p: nat)
    requires 1 <= s < 32 && Shr(TWO32, 32 - s) == p
    requires Or(Shl(TWO32, s), p) == p * TWO32 + p
    requires Mask32(p * TWO32 + p) == p
    ensures Rotl(TWO32, s) == p
  {
    assert s % 32 == s;
    assert Rotl(TWO32, s) == Mask32(Or(Shl(TWO32, s), Shr(TWO32, 32 - s)));
  }

  /** The low 32 bits of `p * 2^32 + p` are `p`. */
  lemma MaskOfRepeatedWord(p: nat)
    requires p < TWO32
    ensures Mask32(p * TWO32 + p) == p
  {
    DivModUnique(p * TWO32 + p, TWO32, p, p);
  }

  /** `2^32 >> (32 - s)` is `2^s`. */
  lemma ShrOfTwo32(s: nat)
    requires 1 <= s < 32
    ensures Pow2(s) < TWO32 && Shr(TWO32, 32 - s) == Pow2(s)
  {
    var p, cofactor := Pow2(s), Pow2(32 - s);
    Pow2Split32(s);
    assert cofactor == 2 * Pow2(31 - s);
    FactorBelow(p, cofactor, TWO32);
    DivModUnique(TWO32, cofactor, p, 0);
  }

  /** `(2^32 << s) | 2^s` is `2^s * 2^32 + 2^s`. */
  lemma ShlOfTwo32(s: nat)
    requires 1 <= s < 32
    ensures Or(Shl(TWO32, s), Pow2(s)) == Pow2(s) * TWO32 + Pow2(s)
  {
    var p := Pow2(s);
    ShrOfTwo32(s);
    Pow2Word();
    assert Shl(TWO32, s) == p * Pow2(32);
    OrDisjoint(p, p, 32);
  }

  lemma RotlOfZero(s: nat)
    ensures Rotl(0, s) == 0
  {
    assert Shl(0, s % 32) == 0;
  }

  /** Word `index` of a block: `int.from_bytes(block[4i:4i+4], "little")`. */
  function Word(block: MD.Block, index: nat): (w: u32)
    requires index < 16
    ensures U32ToLe(w) == block[4 * index..4 * index + 4]
  {
    LeBytesRoundTrip(block[4 * index..4 * index + 4]);
    LeToU32(block[4 * index..4 * index + 4])
  }

  /** One iteration of the loop of `_compress`, ending with the register
      rotation `a, b, c, d = b, c, d, a`. */
  function Round(s: MD.Registers, word: u32, index: nat): MD.Registers
  {
    var mix := Rotl(Xor(word, s.a + index), index % 16 + 1);
    var a := Mask32(s.a + mix);
    var b := Mask32(Xor(Xor(s.b, a), Rotl(word, index % 5 + 1)));
    var c := Mask32(s.c + Rotl(b, index % 7 + 2) + word);
    var d := Mask32(Xor(Xor(s.d, c), index));
    MD.Registers(b, c, d, a)
  }

  /** Rounds `index` to 15 of `_compress`. */
  function CompressFrom(s: MD.Registers, block: MD.Block, index: nat): MD.Registers
    requires index <= 16
    decreases 16 - index
  {
    if index == 16 then s else CompressFrom(Round(s, Word(block, index), index), block, index + 1)
  }

  /** `_compress(state, block)`. */
  function Compress(s: MD.Registers, block: MD.Block): MD.Registers
  {
    CompressFrom(s, block, 0)
  }

  /** `compute_tag` with the toy hash. */
  function ComputeTag(key: seq<byte>, message: seq<byte>, hasher: Option<MD.Hasher>): (tag: seq<byte>)
    ensures |tag| == MD.DIGEST_SIZE
  {
    MD.ComputeTag(Compress, key, message, hasher)
  }

  /** `forge_length_extension` with the toy hash. */
  function ForgeLengthExtension(originalDigest: seq<byte>, originalMessage: seq<byte>, appendMessage: seq<byte>,
                                keyLengthGuess: int, hasher: Option<MD.Hasher>): (r: Result<MD.LengthExtensionResult>)
    ensures r.Ok? <==> keyLengthGuess >= 0 && |originalDigest| == MD.DIGEST_SIZE
  {
    MD.ForgeLengthExtension(Compress, originalDigest, originalMessage, appendMessage, keyLengthGuess, hasher)
  }

  /** Without a caller's hasher the tag is the Merkle–Damgård chaining of
      the padded `key + message` from the IV under `_compress`. */
  lemma TagIsChainedPaddedInput(key: seq<byte>, message: seq<byte>)
    ensures var padded := key + message + MD.GluePadding(|key + message|);
            && |padded| % 64 == 0
            && ComputeTag(key, message, None) == MD.StateToBytes(MD.Chain(Compress, MD.IV, padded))
  {
    MD.DigestIsChainOfPaddedInput(Compress, MD.NewHasher(None, 0), key + message);
  }

  /** The length-extension attack on `compute_tag`: with the right key
      length, the forged digest is the genuine tag of the forged message. */
  lemma ForgedTagVerifies(secret: seq<byte>, original: seq<byte>, append: seq<byte>, forger: Option<MD.Hasher>)
    ensures var forged := ForgeLengthExtension(ComputeTag(secret, original, None), original, append, |secret|, forger);
            && forged.Ok?
            && forged.value.forgedMessage == original + MD.GluePadding(|secret| + |original|) + append
            && forged.value.forgedDigest == ComputeTag(secret, forged.value.forgedMessage, None)
  {
    MD.ForgeryMatchesTag(Compress, secret, original, append, None, forger);
  }
}

=== FILE: merkle_damgard.dfy ===
/** `SimpleMDHasher` as an immutable value, generic in its compression
    function, with the secret-prefix MAC and the length-extension forgery.
    The forgery theorem holds for every compression function; the concrete
    one lives in module `LengthExt`. */
module MerkleDamgard {
  import opened Results
  import opened Bits
  import opened Bytes

  /** `BLOCK_SIZE`; the block loop and the `Block` type write it as 64. */
  const BLOCK_SIZE: nat := 64
  const DIGEST_SIZE: nat := 16

  /** The four 32-bit chaining registers. */
  datatype Registers = Registers(a: u32, b: u32, c: u32, d: u32)

  const IV: Registers := Registers(0x01234567, 0x89AB_CDEF, 0xFEDC_BA98, 0x7654_3210)

  type Block = s: seq<byte> | |s| == 64 witness seq(64, i => 0 as byte)

  /** A compression function: registers and one 64-byte block to registers. */
  type Compression = (Registers, Block) -> Registers

  /** The hasher state: registers, bytes already compressed, pending bytes.
      Being a value, copying it (`copy`) is the identity, and `Digest`,
      `ComputeTag` and `ForgeLengthExtension` cannot alter a caller's hasher. */
  datatype Hasher = Hasher(registers: Registers, processed: nat, buffer: seq<byte>)

  /** `SimpleMDHasher(state, processed_bytes)`. */
  function NewHasher(state: Option<Registers>, processedBytes: nat): Hasher
  {
    Hasher(state.GetOr(IV), processedBytes, [])
  }

  /** The hasher a call starts from: the caller's, or a fresh one. */
  function StartOf(hasher: Option<Hasher>): Hasher
  {
    hasher.GetOr(NewHasher(None, 0))
  }

  /** Reference Merkle–Damgård chaining: compress the blocks of `s` in order. */
  function Chain(c: Compression, registers: Registers, s: seq<byte>): Registers
    requires |s| % 64 == 0
    decreases |s|
  {
    if |s| == 0 then registers else Chain(c, c(registers, s[..64]), s[64..])
  }

  lemma {:induction false} ChainAppend(c: Compression, registers: Registers, s: seq<byte>, t: seq<byte>)
    requires |s| % 64 == 0 && |t| % 64 == 0
    ensures Chain(c, registers, s + t) == Chain(c, Chain(c, registers, s), t)
    decreases |s|
  {
    if |s| == 0 {
      assert s + t == t;
    } else {
      assert (s + t)[..64] == s[..64];
      assert (s + t)[64..] == s[64..] + t;
      ChainAppend(c, c(registers, s[..64]), s[64..], t);
    }
  }

  /** `glue_padding(message_length)`: 0x80, zero bytes up to 56 mod 64, and
      the bit length modulo 2^64 as 8 big-endian bytes (`glue_padding`'s mask
      `& 0xFFFFFFFFFFFFFFFF` is written as the remainder it equals,
      `BitLengthMask`). */
  function GluePadding(messageLength: nat): (pad: seq<byte>)
    ensures (messageLength + |pad|) % 64 == 0
    ensures 9 <= |pad| <= 72
  {
    var bitLength := (messageLength * 8) % TWO64;
    var remainder := (messageLength + 1) % BLOCK_SIZE;
    var padLength := (BLOCK_SIZE - 8 - remainder) % BLOCK_SIZE;
    GlueAlignment(messageLength, padLength);
    [0x80] + seq(padLength, _ => 0) + NatToBe(bitLength, 8)
  }

  /** The layout of the glue padding: the 0x80 marker, zero bytes, and the
      message length in bits modulo 2^64 as a big-endian 8-byte field. */
  lemma GluePaddingLayout(messageLength: nat)
    ensures var pad := GluePadding(messageLength);
            && pad[0] == 0x80
            && (forall j :: 1 <= j < |pad| - 8 ==> pad[j] == 0)
            && BeToNat(pad[|pad| - 8..]) == (messageLength * 8) % TWO64
  {
    Pow2DoubleWord();
    var bitLength := (messageLength * 8) % TWO64;
    DivModUnique(bitLength, TWO64, 0, bitLength);
    var pad := GluePadding(messageLength);
    assert pad[|pad| - 8..] == NatToBe(bitLength, 8);
  }

  /** `(message_length * 8) & 0xFFFFFFFFFFFFFFFF`, the bit length the
      padding records, is the bit length modulo 2^64. */
  lemma BitLengthMask(messageLength: nat)
    ensures And(messageLength * 8, TWO64 - 1) == (messageLength * 8) % TWO64
  {
    Pow2DoubleWord();
    AndLowMask(messageLength * 8, 64);
  }

  lemma GlueAlignment(n: nat, padLength: int)
    requires padLength == (64 - 8 - (n + 1) % 64) % 64
    ensures 0 <= padLength < 64 && (n + 9 + padLength) % 64 == 0
  {
    var q, r := (n + 1) / 64, (n + 1) % 64;
    if r <= 56 {
      DivModUnique(56 - r, 64, 0, 56 - r);
      DivModUnique(n + 9 + padLength, 64, q + 1, 0);
    } else {
      DivModUnique(56 - r, 64, -1, 120 - r);
      DivModUnique(n + 9 + padLength, 64, q + 2, 0);
    }
  }

  /** A remainder shorter than a block that completes two block-aligned
      counts to a block boundary is empty. */
  lemma ZeroRemainder(start: int, end: int, b: int, total: int)
    requires start % 64 == 0 && (end - start) % 64 == 0 && total % 64 == 0
    requires end + b == total && 0 <= b < 64
    ensures b == 0
  {
    DivModUnique(total, 64, start / 64 + (end - start) / 64, b);
  }

  /** The `while` loop of `update`: compress every full block of `pending`. */
  function Absorb(c: Compression, registers: Registers, processed: nat, pending: seq<byte>): (r: Hasher)
    ensures |r.buffer| < 64
    ensures r.processed >= processed && (r.processed - processed) % 64 == 0
    ensures r.processed + |r.buffer| == processed + |pending|
    decreases |pending|
  {
    if |pending| < 64 then Hasher(registers, processed, pending)
    else Absorb(c, c(registers, pending[..64]), processed + 64, pending[64..])
  }

  /** What `Absorb` leaves behind: the pending suffix after the consumed
      whole blocks, and the registers chained over those blocks. */
  lemma {:induction false} AbsorbChains(c: Compression, registers: Registers, processed: nat, pending: seq<byte>)
    ensures var r := Absorb(c, registers, processed, pending);
            && r.buffer == pending[r.processed - processed..]
            && r.registers == Chain(c, registers, pending[..r.processed - processed])
    decreases |pending|
  {
    if |pending| >= 64 {
      var r := Absorb(c, c(registers, pending[..64]), processed + 64, pending[64..]);
      AbsorbChains(c, c(registers, pending[..64]), processed + 64, pending[64..]);
      var consumed := r.processed - processed;
      assert pending[..consumed][..64] == pending[..64];
      assert pending[..consumed][64..] == pending[64..][..consumed - 64];
      assert pending[64..][consumed - 64..] == pending[consumed..];
    } else {
      assert pending[..0] == [];
    }
  }

  /** `update(data)`. */
  function Update(c: Compression, h: Hasher, data: seq<byte>): (r: Hasher)
    ensures |data| == 0 ==> r == h
    ensures |data| > 0 || |h.buffer| < 64 ==> |r.buffer| < 64
    ensures r.processed >= h.processed && (r.processed - h.processed) % 64 == 0
    ensures r.processed + |r.buffer| == h.processed + |h.buffer| + |data|
  {
    if |data| == 0 then h else Absorb(c, h.registers, h.processed, h.buffer + data)
  }

  /** `update` compresses the whole blocks of buffer-plus-data in order and
      keeps the rest as the new buffer. */
  lemma UpdateChains(c: Compression, h: Hasher, data: seq<byte>)
    ensures var r := Update(c, h, data);
            && r.buffer == (h.buffer + data)[r.processed - h.processed..]
            && r.registers == Chain(c, h.registers, (h.buffer + data)[..r.processed - h.processed])
  {
    if |data| == 0 {
      assert h.buffer + data == h.buffer;
      assert h.buffer[..0] == [];
    } else {
      AbsorbChains(c, h.registers, h.processed, h.buffer + data);
    }
  }

  lemma {:induction false} AbsorbAppend(c: Compression, registers: Registers, processed: nat,
                                        pending: seq<byte>, more: seq<byte>)
    ensures Absorb(c, registers, processed, pending + more)
         == (var h := Absorb(c, registers, processed, pending);
             Absorb(c, h.registers, h.processed, h.buffer + more))
    decreases |pending|
  {
    if |pending| >= 64 {
      assert (pending + more)[..64] == pending[..64];
      assert (pending + more)[64..] == pending[64..] + more;
      AbsorbAppend(c, c(registers, pending[..64]), processed + 64, pending[64..], more);
    }
  }

  /** Streaming: `update(x); update(y)` equals `update(x + y)`. */
  lemma UpdateConcat(c: Compression, h: Hasher, x: seq<byte>, y: seq<byte>)
    ensures Update(c, Update(c, h, x), y) == Update(c, h, x + y)
  {
    if |x| == 0 {
      assert x + y == y;
    } else if |y| == 0 {
      assert x + y == x;
    } else {
      assert h.buffer + (x + y) == (h.buffer + x) + y;
      AbsorbAppend(c, h.registers, h.processed, h.buffer + x, y);
    }
  }

  /** `_state_to_bytes()`: the registers as little-endian words. */
  function StateToBytes(r: Registers): (d: seq<byte>)
    ensures |d| == 16
  {
    U32ToLe(r.a) + U32ToLe(r.b) + U32ToLe(r.c) + U32ToLe(r.d)
  }

  /** The register values `state_from_digest` reads from a 16-byte digest. */
  function BytesToState(d: seq<byte>): Registers
    requires |d| == 16
  {
    Registers(LeToU32(d[0..4]), LeToU32(d[4..8]), LeToU32(d[8..12]), LeToU32(d[12..16]))
  }

  lemma StateRoundTrip(r: Registers)
    ensures BytesToState(StateToBytes(r)) == r
  {
    var d := StateToBytes(r);
    assert d[0..4] == U32ToLe(r.a) && d[4..8] == U32ToLe(r.b);
    assert d[8..12] == U32ToLe(r.c) && d[12..16] == U32ToLe(r.d);
    LeWordRoundTrip(r.a);
    LeWordRoundTrip(r.b);
    LeWordRoundTrip(r.c);
    LeWordRoundTrip(r.d);
  }

  lemma DigestRoundTrip(d: seq<byte>)
    requires |d| == 16
    ensures StateToBytes(BytesToState(d)) == d
  {
    LeBytesRoundTrip(d[0..4]);
    LeBytesRoundTrip(d[4..8]);
    LeBytesRoundTrip(d[8..12]);
    LeBytesRoundTrip(d[12..16]);
    assert d == d[0..4] + d[4..8] + d[8..12] + d[12..16];
  }

  /** `_apply_padding()` on a copy: absorb the glue padding for the total length. */
  function Finalize(c: Compression, h: Hasher): Hasher
  {
    Update(c, h, GluePadding(h.processed + |h.buffer|))
  }

  /** `digest()`: the finalised registers, serialised; `h` itself is unchanged. */
  function Digest(c: Compression, h: Hasher): (d: seq<byte>)
    ensures |d| == DIGEST_SIZE
  {
    StateToBytes(Finalize(c, h).registers)
  }

  /** Finalising after `update(data)` is one update with the padded data. */
  lemma FinalizeAfterUpdate(c: Compression, h: Hasher, data: seq<byte>, n: nat)
    requires n == h.processed + |h.buffer| + |data|
    ensures Finalize(c, Update(c, h, data)) == Update(c, h, data + GluePadding(n))
  {
    var h1 := Update(c, h, data);
    var glue := GluePadding(n);
    assert h1.processed + |h1.buffer| == n;
    assert Finalize(c, h1) == Update(c, h1, glue);
    UpdateConcat(c, h, data, glue);
  }

  /** After absorbing `m` and its glue padding, a hasher that started on a
      block boundary with an empty buffer is on a boundary again with an
      empty buffer, and its digest after `m` reveals exactly its registers. */
  lemma PaddedState(c: Compression, h: Hasher, m: seq<byte>, n: nat) returns (hp: Hasher)
    requires h.buffer == [] && h.processed % 64 == 0 && n == h.processed + |m|
    ensures hp == Update(c, h, m + GluePadding(n))
    ensures hp == Hasher(hp.registers, n + |GluePadding(n)|, [])
    ensures Digest(c, Update(c, h, m)) == StateToBytes(hp.registers)
  {
    assert h.buffer + m == m;
    FinalizeAfterUpdate(c, h, m, n);
    hp := Update(c, h, m + GluePadding(n));
    PaddedAligned(c, h, m, n);
  }

  /** Absorbing `m` and its glue padding from a block boundary ends on a
      block boundary with an empty buffer. */
  lemma PaddedAligned(c: Compression, h: Hasher, m: seq<byte>, n: nat)
    requires h.buffer == [] && h.processed % 64 == 0 && n == h.processed + |m|
    ensures var hp := Update(c, h, m + GluePadding(n));
            hp.processed == n + |GluePadding(n)| && hp.buffer == []
  {
    var glue := GluePadding(n);
    var hp := Update(c, h, m + glue);
    ZeroRemainder(h.processed, hp.processed, |hp.buffer|, n + |glue|);
  }

  /** Merkle–Damgård: such a hasher digests `data` to the chaining of the
      padded input, block by block. */
  lemma DigestIsChainOfPaddedInput(c: Compression, h: Hasher, data: seq<byte>)
    requires h.buffer == [] && h.processed % 64 == 0
    ensures var padded := data + GluePadding(h.processed + |data|);
            && |padded| % 64 == 0
            && Digest(c, Update(c, h, data)) == StateToBytes(Chain(c, h.registers, padded))
  {
    var glue := GluePadding(h.processed + |data|);
    assert h.buffer + (data + glue) == data + glue;
    var hp := PaddedState(c, h, data, h.processed + |data|);
    UpdateWholeBlocks(c, h, data + glue);
  }

  /** An update that leaves nothing buffered has chained over all of
      buffer-plus-data. */
  lemma UpdateWholeBlocks(c: Compression, h: Hasher, data: seq<byte>)
    requires Update(c, h, data).buffer == []
    ensures Update(c, h, data).registers == Chain(c, h.registers, h.buffer + data)
  {
    var r := Update(c, h, data);
    var all := h.buffer + data;
    UpdateChains(c, h, data);
    assert r.processed - h.processed == |all|;
    assert all[..|all|] == all;
  }

  /** `state_from_digest(digest)`. */
  function StateFromDigest(h: Hasher, digest: seq<byte>): (r: Result<Hasher>)
    ensures r.Ok? <==> |digest| == DIGEST_SIZE
    ensures r.Err? ==> r.error.InvalidArgument?
    ensures r.Ok? ==> StateToBytes(r.value.registers) == digest
    ensures r.Ok? ==> r.value.processed == h.processed && r.value.buffer == []
  {
    if |digest| != DIGEST_SIZE then Err(InvalidArgument("digest length mismatch for SimpleMDHasher"))
    else
      DigestRoundTrip(digest);
      Ok(Hasher(BytesToState(digest), h.processed, []))
  }

  /** `set_processed_length(total_length)`. */
  function SetProcessedLength(h: Hasher, totalLength: int): (r: Result<Hasher>)
    ensures r.Ok? <==> totalLength >= 0
    ensures r.Err? ==> r.error.InvalidArgument?
    ensures r.Ok? ==> r.value.registers == h.registers && r.value.processed == totalLength && r.value.buffer == []
  {
    if totalLength < 0 then Err(InvalidArgument("processed length cannot be negative"))
    else Ok(Hasher(h.registers, totalLength, []))
  }

  /** `compute_tag(key, message, hasher)`: the digest of `key + message`. */
  function ComputeTag(c: Compression, key: seq<byte>, message: seq<byte>, hasher: Option<Hasher>): (tag: seq<byte>)
    ensures |tag| == DIGEST_SIZE
  {
    Digest(c, Update(c, StartOf(hasher), key + message))
  }

  /** The `LengthExtensionResult` record (the digest as raw bytes). */
  datatype LengthExtensionResult = LengthExtensionResult(
    forgedMessage: seq<byte>,
    forgedDigest: seq<byte>,
    gluePadding: seq<byte>,
    keyLengthGuess: nat)

  /** `forge_length_extension(...)`: resume hashing from an observed tag. */
  function ForgeLengthExtension(c: Compression, originalDigest: seq<byte>, originalMessage: seq<byte>,
                                appendMessage: seq<byte>, keyLengthGuess: int, hasher: Option<Hasher>)
    : (r: Result<LengthExtensionResult>)
    ensures r.Ok? <==> keyLengthGuess >= 0 && |originalDigest| == DIGEST_SIZE
    ensures r.Err? ==> r.error.InvalidArgument?
    ensures r.Ok? ==>
      && r.value.gluePadding == GluePadding(keyLengthGuess + |originalMessage|)
      && r.value.forgedMessage == originalMessage + r.value.gluePadding + appendMessage
      && r.value.keyLengthGuess == keyLengthGuess
      && |r.value.forgedDigest| == DIGEST_SIZE
  {
    if keyLengthGuess < 0 then Err(InvalidArgument("key_length_guess must be non-negative"))
    else
      var injected := StateFromDigest(StartOf(hasher), originalDigest);
      if injected.Err? then Err(injected.error)
      else
        var glue := GluePadding(keyLengthGuess + |originalMessage|);
        var digest := ResumedDigest(c, injected.value, keyLengthGuess + |originalMessage| + |glue|, appendMessage);
        Ok(LengthExtensionResult(originalMessage + glue + appendMessage, digest, glue, keyLengthGuess))
  }

  /** The tail of `forge_length_extension`: set the counter past the glue
      padding, absorb the appended bytes and digest. */
  function ResumedDigest(c: Compression, injected: Hasher, total: nat, appendMessage: seq<byte>): (d: seq<byte>)
    ensures |d| == DIGEST_SIZE
  {
    var resumed := SetProcessedLength(injected, total).value;
    Digest(c, Update(c, resumed, appendMessage))
  }

  lemma AppendAssociates(a: seq<byte>, b: seq<byte>, c: seq<byte>, d: seq<byte>)
    ensures a + (b + c + d) == (a + b) + c + d
  {
  }

  /** The length-extension theorem, for every compression function: when
      the tag of `secret + original` came from a hasher that had absorbed
      nothing, and the key-length guess is right, the forged digest is the
      genuine tag of `secret + forgedMessage`. */
  lemma ForgeryMatchesTag(c: Compression, secret: seq<byte>, original: seq<byte>, append: seq<byte>,
                          hasher: Option<Hasher>, forger: Option<Hasher>)
    requires StartOf(hasher).processed == 0 && StartOf(hasher).buffer == []
    ensures var tag := ComputeTag(c, secret, original, hasher);
            var forged := ForgeLengthExtension(c, tag, original, append, |secret|, forger);
            && forged.Ok?
            && forged.value.forgedDigest == ComputeTag(c, secret, forged.value.forgedMessage, hasher)
  {
    ForgeryDigest(c, secret, original, append, hasher, forger);
  }

  /** The forged digest is the digest of the hasher that absorbed the
      secret followed by the forged message. */
  lemma ForgeryDigest(c: Compression, secret: seq<byte>, original: seq<byte>, append: seq<byte>,
                      hasher: Option<Hasher>, forger: Option<Hasher>)
    requires StartOf(hasher).processed == 0 && StartOf(hasher).buffer == []
    ensures var tag := ComputeTag(c, secret, original, hasher);
            var forged := ForgeLengthExtension(c, tag, original, append, |secret|, forger);
            && forged.Ok?
            && forged.value.forgedDigest == Digest(c, Update(c, StartOf(hasher), secret + forged.value.forgedMessage))
  {
    var glue := GluePadding(|secret| + |original|);
    var hp := TagState(c, secret, original, hasher);
    ForgeResumes(c, hp, original, append, |secret|, forger);
    var forged := ForgeLengthExtension(c, ComputeTag(c, secret, original, hasher), original, append, |secret|, forger);
    assert forged.Ok? && forged.value.forgedMessage == original + glue + append;
    ContinueAfterGlue(c, StartOf(hasher), secret, original, glue, append);
  }

  /** The tag of `secret + original` serialises the registers of the hasher
      that has absorbed `secret + original` and its glue padding. */
  lemma TagState(c: Compression, secret: seq<byte>, original: seq<byte>, hasher: Option<Hasher>)
    returns (hp: Hasher)
    requires StartOf(hasher).processed == 0 && StartOf(hasher).buffer == []
    ensures ComputeTag(c, secret, original, hasher) == StateToBytes(hp.registers)
    ensures hp == Hasher(hp.registers, |secret| + |original| + |GluePadding(|secret| + |original|)|, [])
    ensures hp == Update(c, StartOf(hasher), secret + original + GluePadding(|secret| + |original|))
  {
    hp := PaddedState(c, StartOf(hasher), secret + original, |secret| + |original|);
  }

  /** Absorbing the appendix after `secret + original + glue` is absorbing
      `secret` followed by the forged message in one go. */
  lemma ContinueAfterGlue(c: Compression, h: Hasher, secret: seq<byte>, original: seq<byte>,
                          glue: seq<byte>, append: seq<byte>)
    ensures Update(c, Update(c, h, secret + original + glue), append)
         == Update(c, h, secret + (original + glue + append))
  {
    UpdateConcat(c, h, secret + original + glue, append);
    AppendAssociates(secret, original, glue, append);
  }

  /** The forger resumes from the registers an observed tag encodes, with
      the counter past the original message and its glue padding. */
  lemma ForgeResumes(c: Compression, resumed: Hasher, original: seq<byte>, append: seq<byte>,
                     keyLengthGuess: nat, forger: Option<Hasher>)
    requires resumed == Hasher(resumed.registers, keyLengthGuess + |original| + |GluePadding(keyLengthGuess + |original|)|, [])
    ensures var forged := ForgeLengthExtension(c, StateToBytes(resumed.registers), original, append, keyLengthGuess, forger);
            && forged.Ok?
            && forged.value.forgedDigest == Digest(c, Update(c, resumed, append))
  {
    ForgeInjects(c, resumed.registers, original, append, keyLengthGuess, forger);
  }

  /** The forger injects the registers the observed tag encodes. */
  lemma ForgeInjects(c: Compression, registers: Registers, original: seq<byte>, append: seq<byte>,
                     keyLengthGuess: nat, forger: Option<Hasher>)
    ensures var total := keyLengthGuess + |original|;
            var forged := ForgeLengthExtension(c, StateToBytes(registers), original, append, keyLengthGuess, forger);
            && forged.Ok?
            && forged.value.forgedDigest
               == Digest(c, Update(c, Hasher(registers, total + |GluePadding(total)|, []), append))
  {
    var injected := Hasher(registers, StartOf(forger).processed, []);
    StateRoundTrip(registers);
    assert StateFromDigest(StartOf(forger), StateToBytes(registers)) == Ok(injected);
    var total := keyLengthGuess + |original|;
    ResumedAt(c, injected, total + |GluePadding(total)|, append);
  }

  lemma ResumedAt(c: Compression, injected: Hasher, total: nat, appendMessage: seq<byte>)
    ensures ResumedDigest(c, injected, total, appendMessage)
         == Digest(c, Update(c, Hasher(injected.registers, total, []), appendMessage))
  {
  }
}

=== FILE: pollard.dfy ===
/** Floyd's tortoise-and-hare cycle detection over the toy hash viewed as a
    self-map, and the functional-graph trace used for display. */
module Pollard {
  import opened Results
  import opened Bits
  import opened Bytes
  import opened HashUtils

  /** `max(1, (bits + 7) // 8)`: the width of the state encoding. */
  function ByteLength(bits: int): (r: nat)
    ensures r >= 1
    ensures bits > 0 ==> bits <= 8 * r
  {
    if (bits + 7) / 8 >= 1 then (bits + 7) / 8 else 1
  }

  /** `_hash_step(value, bits)`: hash the fixed-width big-endian encoding of
      `value`. `to_bytes` refuses a negative or too wide value with an
      `OverflowError`; the toy hash then refuses a width outside 1..256. */
  function HashStep(sha: Sha256, value: int, bits: int): (r: Result<nat>)
    ensures r.Ok? <==> 0 <= value < Pow2(8 * ByteLength(bits)) && 1 <= bits <= 256
    ensures !(0 <= value < Pow2(8 * ByteLength(bits))) ==> r.Err? && r.error.Overflow?
    ensures r.Err? && 0 <= value < Pow2(8 * ByteLength(bits)) ==> r.error.InvalidArgument?
    ensures r.Ok? ==> r.value < Pow2(bits)
    ensures r.Ok? ==> r.value == HashValue(sha, NatToBe(value, ByteLength(bits)), bits)
  {
    var width := ByteLength(bits);
    if value < 0 then Err(Overflow("can't convert negative int to unsigned"))
    else if value >= Pow2(8 * width) then Err(Overflow("int too big to convert"))
    else ToyHash(sha, NatToBe(value, width), bits)
  }

  /** The encoding `_hash_step` hashes is exact: it decodes to the state. */
  lemma HashStepEncodingExact(value: nat, bits: int)
    requires value < Pow2(8 * ByteLength(bits))
    ensures BeToNat(NatToBe(value, ByteLength(bits))) == value
  {
    DivModUnique(value, Pow2(8 * ByteLength(bits)), 0, value);
  }

  /** Every output of `_hash_step` is again a valid input, so iterating it
      from a valid start never raises: the step is a self-map of [0, 2^bits). */
  lemma HashStepClosed(sha: Sha256, value: int, bits: int)
    requires HashStep(sha, value, bits).Ok?
    ensures HashStep(sha, HashStep(sha, value, bits).value, bits).Ok?
  {
    Pow2Monotone(bits, 8 * ByteLength(bits));
  }

  // ---------------------------------------------------------------------
  // Iteration of an abstract step function
  // ---------------------------------------------------------------------

  /** `f` applied `k` times to `x`. */
  function Iter(f: nat -> nat, k: nat, x: nat): nat
  {
    if k == 0 then x else f(Iter(f, k - 1, x))
  }

  lemma {:induction false} IterAdd(f: nat -> nat, a: nat, b: nat, x: nat)
    ensures Iter(f, a + b, x) == Iter(f, a, Iter(f, b, x))
    decreases a
  {
    if a > 0 {
      IterAdd(f, a - 1, b, x);
    }
  }

  /** A point that `f` brings back to itself lies on a cycle. */
  ghost predicate OnCycle(f: nat -> nat, x: nat)
  {
    exists m :: m >= 1 && Iter(f, m, x) == x
  }

  /** `mu` is the tail length from `start`: the first point on a cycle. */
  ghost predicate IsTailLength(f: nat -> nat, start: nat, mu: nat)
  {
    && OnCycle(f, Iter(f, mu, start))
    && forall k :: 0 <= k < mu ==> !OnCycle(f, Iter(f, k, start))
  }

  /** `lam` is the length of the cycle through `x`. */
  ghost predicate IsCycleLength(f: nat -> nat, x: nat, lam: nat)
  {
    && lam >= 1
    && Iter(f, lam, x) == x
    && forall m :: 1 <= m < lam ==> Iter(f, m, x) != x
  }

  /** Floyd's condition at iteration `i`: tortoise and hare coincide. */
  ghost predicate Meets(f: nat -> nat, start: nat, i: nat)
  {
    Iter(f, i, start) == Iter(f, 2 * i, start)
  }

  /** A point returning after `m` steps returns after any multiple of `m`. */
  lemma {:induction false} IterPeriod(f: nat -> nat, x: nat, m: nat, t: nat)
    requires Iter(f, m, x) == x
    ensures Iter(f, t * m, x) == x
    decreases t
  {
    if t > 0 {
      IterPeriod(f, x, m, t - 1);
      assert t * m == m + (t - 1) * m;
      IterAdd(f, m, (t - 1) * m, x);
    }
  }

  /** The heart of Floyd's tail computation: once the tortoise and hare met
      at step `i`, every point on a cycle agrees with the point `i` steps
      later. */
  lemma CycleAgreesAfterMeeting(f: nat -> nat, start: nat, i: nat, k: nat)
    requires i >= 1
    requires Iter(f, i, Iter(f, i, start)) == Iter(f, i, start)
    ensures OnCycle(f, Iter(f, k, start)) ==> Iter(f, k, start) == Iter(f, k + i, start)
  {
    var xk := Iter(f, k, start);
    var xi := Iter(f, i, start);
    if OnCycle(f, xk) {
      var m :| m >= 1 && Iter(f, m, xk) == xk;
      // x_k == x_{k + i*m}
      IterPeriod(f, xk, m, i);
      assert i * m == m * i;
      IterAdd(f, i * m, k, start);
      // x_{k+i} == x_{k + i + (m-1)*i} == x_{k + i*m}
      IterPeriod(f, xi, i, m - 1);
      IterAdd(f, k, (m - 1) * i, xi);
      IterAdd(f, (m - 1) * i, i, start);
      IterAdd(f, k, (m - 1) * i + i, start);
      assert (m - 1) * i + i == i * m;
      IterAdd(f, k, i, start);
      assert k + i == i + k;
    }
  }

  /** `_locate_cycle_parameters`: given the meeting point of Floyd's search
      (reached at step `iterations`, so both loops stop), compute the
      tail length `mu` and the cycle length `lam`. */
  method LocateCycleParameters(f: nat -> nat, start: nat, meeting: nat, ghost iterations: nat)
    returns (mu: nat, lam: nat)
    requires iterations >= 1
    requires Iter(f, iterations, start) == meeting
    requires Iter(f, iterations, meeting) == meeting
    ensures mu <= iterations && lam <= iterations
    ensures Iter(f, mu, start) == Iter(f, mu, meeting)
    ensures forall k :: 0 <= k < mu ==> Iter(f, k, start) != Iter(f, k, meeting)
    ensures IsTailLength(f, start, mu)
    ensures IsCycleLength(f, Iter(f, mu, start), lam)
  {
    var entry;
    mu, entry := FindTail(f, start, meeting, iterations);
    assert Iter(f, iterations, entry) == entry by {
      IterAdd(f, iterations, mu, meeting);
      IterAdd(f, mu, iterations, meeting);
    }
    lam := FindCycle(f, entry, iterations);
    forall k | 0 <= k < mu
      ensures !OnCycle(f, Iter(f, k, start))
    {
      CycleAgreesAfterMeeting(f, start, iterations, k);
      IterAdd(f, k, iterations, start);
    }
  }

  /** The first loop of `_locate_cycle_parameters`: advance a tortoise from
      `start` and a hare from `meeting` in step until they coincide. */
  method FindTail(f: nat -> nat, start: nat, meeting: nat, ghost iterations: nat) returns (mu: nat, entry: nat)
    requires Iter(f, iterations, start) == meeting
    requires Iter(f, iterations, meeting) == meeting
    ensures mu <= iterations
    ensures entry == Iter(f, mu, start) && entry == Iter(f, mu, meeting)
    ensures forall k :: 0 <= k < mu ==> Iter(f, k, start) != Iter(f, k, meeting)
  {
    var tortoise, hare := start, meeting;
    mu := 0;
    while tortoise != hare
      invariant mu <= iterations
      invariant tortoise == Iter(f, mu, start) && hare == Iter(f, mu, meeting)
      invariant forall k :: 0 <= k < mu ==> Iter(f, k, start) != Iter(f, k, meeting)
      decreases iterations - mu
    {
      tortoise := f(tortoise);
      hare := f(hare);
      mu := mu + 1;
    }
    entry := tortoise;
  }

  /** The second loop of `_locate_cycle_parameters`: walk from `entry` until
      it comes back, counting the steps. */
  method FindCycle(f: nat -> nat, entry: nat, ghost iterations: nat) returns (lam: nat)
    requires iterations >= 1 && Iter(f, iterations, entry) == entry
    ensures lam <= iterations
    ensures IsCycleLength(f, entry, lam)
  {
    var hare := f(entry);
    lam := 1;
    while entry != hare
      invariant 1 <= lam <= iterations
      invariant hare == Iter(f, lam, entry)
      invariant forall m :: 1 <= m < lam ==> Iter(f, m, entry) != entry
      decreases iterations - lam
    {
      hare := f(hare);
      lam := lam + 1;
    }
  }

  /** The `PollardResult` record. */
  datatype PollardResult = PollardResult(
    collisionValue: nat,
    iterations: nat,
    tailLength: nat,
    cycleLength: nat,
    tortoisePath: seq<nat>,
    harePath: seq<nat>)

  /** The recorded paths: position `j` of the tortoise's path is `x_j`, of
      the hare's `x_(2j)`. */
  ghost predicate FloydPaths(f: nat -> nat, start: nat, tortoisePath: seq<nat>, harePath: seq<nat>)
  {
    && (forall j :: 0 <= j < |tortoisePath| ==> tortoisePath[j] == Iter(f, j, start))
    && (forall j :: 0 <= j < |harePath| ==> harePath[j] == Iter(f, 2 * j, start))
  }

  lemma FloydPathsExtend(f: nat -> nat, start: nat, tortoisePath: seq<nat>, harePath: seq<nat>)
    requires FloydPaths(f, start, tortoisePath, harePath)
    ensures FloydPaths(f, start, tortoisePath + [Iter(f, |tortoisePath|, start)],
                       harePath + [Iter(f, 2 * |harePath|, start)])
  {
    var tp, hp := tortoisePath + [Iter(f, |tortoisePath|, start)], harePath + [Iter(f, 2 * |harePath|, start)];
    forall j | 0 <= j < |tp|
      ensures tp[j] == Iter(f, j, start)
    {
      if j < |tortoisePath| {
        assert tp[j] == tortoisePath[j];
      }
    }
    forall j | 0 <= j < |hp|
      ensures hp[j] == Iter(f, 2 * j, start)
    {
      if j < |harePath| {
        assert hp[j] == harePath[j];
      }
    }
  }

  /** `pollard_rho(bits, start, max_steps)` with the step `_hash_step(., bits)`
      passed as `f`. */
  method PollardRho(f: nat -> nat, start: nat, maxSteps: int) returns (r: Result<PollardResult>)
    ensures r.Ok? <==> exists i :: 1 <= i <= maxSteps && Meets(f, start, i)
    ensures r.Err? ==> r.error.NonConvergence?
    ensures r.Ok? ==>
      var p := r.value;
      && 1 <= p.iterations <= maxSteps
      && Meets(f, start, p.iterations)
      && (forall i :: 1 <= i < p.iterations ==> !Meets(f, start, i))
      && p.collisionValue == Iter(f, p.iterations, start)
      && |p.tortoisePath| == p.iterations + 1 == |p.harePath|
      && (forall j :: 0 <= j < |p.tortoisePath| ==> p.tortoisePath[j] == Iter(f, j, start))
      && (forall j :: 0 <= j < |p.harePath| ==> p.harePath[j] == Iter(f, 2 * j, start))
      && IsTailLength(f, start, p.tailLength)
      && IsCycleLength(f, Iter(f, p.tailLength, start), p.cycleLength)
  {
    var tortoise, hare := start, start;
    var tortoisePath, harePath := [start], [start];
    var iteration := 1;
    while iteration <= maxSteps
      invariant 1 <= iteration
      invariant |tortoisePath| == iteration == |harePath|
      invariant tortoise == Iter(f, iteration - 1, start)
      invariant hare == Iter(f, 2 * (iteration - 1), start)
      invariant FloydPaths(f, start, tortoisePath, harePath)
      invariant forall i :: 1 <= i < iteration ==> !Meets(f, start, i)
      decreases maxSteps - iteration
    {
      tortoise := f(tortoise);
      hare := f(f(hare));
      assert hare == Iter(f, 2 * iteration, start) by {
        assert Iter(f, 2 * iteration, start) == f(Iter(f, 2 * iteration - 1, start));
        assert 2 * iteration - 1 - 1 == 2 * (iteration - 1);
      }
      FloydPathsExtend(f, start, tortoisePath, harePath);
      tortoisePath := tortoisePath + [tortoise];
      harePath := harePath + [hare];
      if tortoise == hare {
        assert Meets(f, start, iteration);
        IterAdd(f, iteration, iteration, start);
        assert iteration + iteration == 2 * iteration;
        var mu, lam := LocateCycleParameters(f, start, tortoise, iteration);
        return Ok(PollardResult(tortoise, iteration, mu, lam, tortoisePath, harePath));
      }
      iteration := iteration + 1;
    }
    return Err(NonConvergence("Pollard rho did not converge within max_steps"));
  }

  /** `order` lists the first `|order|` points of the walk from `start`,
      all distinct, and `trace` maps each of them to its successor. */
  ghost predicate IsTrace(f: nat -> nat, start: nat, trace: map<nat, nat>, order: seq<nat>)
  {
    && (forall j :: 0 <= j < |order| ==> order[j] == Iter(f, j, start))
    && (forall j, k :: 0 <= j < k < |order| ==> order[j] != order[k])
    && (forall v :: v in trace <==> v in order)
    && (forall v :: v in trace ==> trace[v] == f(v))
    && |trace| == |order|
  }

  /** Recording the next point of the walk, when it is new, keeps a trace. */
  lemma TraceExtends(f: nat -> nat, start: nat, trace: map<nat, nat>, order: seq<nat>)
    requires IsTrace(f, start, trace, order)
    requires Iter(f, |order|, start) !in trace
    ensures var value := Iter(f, |order|, start);
            IsTrace(f, start, trace[value := f(value)], order + [value])
  {
    var value := Iter(f, |order|, start);
    var order' := order + [value];
    forall j | 0 <= j < |order'|
      ensures order'[j] == Iter(f, j, start)
    {
      if j < |order| {
        assert order'[j] == order[j];
      }
    }
  }

  /** `pollard_trace(bits, start, steps)`. `pollard_trace` returns a dict; the
      model returns it as the map `trace` together with its key order
      `order` (a dict iterates in insertion order). */
  method PollardTrace(f: nat -> nat, start: nat, steps: int) returns (trace: map<nat, nat>, order: seq<nat>)
    ensures |order| <= Max(steps, 0)
    ensures steps >= 1 ==> |order| >= 1
    ensures forall j :: 0 <= j < |order| ==> order[j] == Iter(f, j, start)
    ensures forall j, k :: 0 <= j < k < |order| ==> order[j] != order[k]
    ensures forall v :: v in trace <==> v in order
    ensures forall v :: v in trace ==> trace[v] == f(v)
    ensures |trace| == |order|
    ensures |order| < steps ==> Iter(f, |order|, start) in trace
  {
    trace, order := map[], [];
    var value := start;
    var taken := 0;
    while taken < steps
      invariant taken == |order| <= Max(steps, 0)
      invariant value == Iter(f, taken, start)
      invariant IsTrace(f, start, trace, order)
      invariant value !in trace
      decreases steps - taken
    {
      var next := f(value);
      TraceExtends(f, start, trace, order);
      trace := trace[value := next];
      order := order + [value];
      value := next;
      taken := taken + 1;
      if value in trace {
        break;
      }
    }
  }
}

=== FILE: results.dfy ===
/** Outcome types shared by every module: the core's raised exceptions
    become `Err` values and its `None` returns become `None`. */
module Results {

  /** The kinds of failure the core raises. */
  datatype Error =
    | InvalidArgument(reason: string)   // ValueError
    | Overflow(reason: string)          // OverflowError from int.to_bytes
    | NonConvergence(reason: string)    // RuntimeError from pollard_rho

  /** Either a value or the error the core would have raised. Supports `:-`. */
  datatype Result<T> = Ok(value: T) | Err(error: Error) {

    predicate IsFailure() {
      Err?
    }

    function PropagateFailure<U>(): Result<U>
      requires Err?
    {
      Err(error)
    }

    function Extract(): T
      requires Ok?
    {
      value
    }
  }

  datatype Option<T> = None | Some(value: T) {

    /** The wrapped value, or `default` when absent. */
    function GetOr(default: T): T {
      match this
      case Some(v) => v
      case None => default
    }
  }

  function Max(a: int, b: int): int {
    if a >= b then a else b
  }

  function Min(a: int, b: int): int {
    if a <= b then a else b
  }
}
